=== FILE: README.md ===
# Siva chat page: a Dafny model

This project models the core of the "Siva" browser chat assistant. That core is:

- the chat page's `streamChat`, which posts the conversation, reads the
  streamed reply as server-sent-event lines and grows the assistant's message
  piece by piece;
- the submit gate;
- the effect that copies a finished voice transcript into the input box;
- the microphone and speaker buttons;
- the two browser-speech hooks the page uses: `useVoiceInput` (speech
  recognition) and `useTextToSpeech` (speech synthesis).

Modules, in dependency order:

- `Options`, `Text` (text.dfy): an option type, and the JavaScript string
  operations the page relies on. These are `trim` with the ECMAScript
  white-space set, `startsWith`, `endsWith` and `indexOf`.
- `Framing` (framing.dfy): cutting text into '\n'-terminated lines and an
  unterminated tail. The cut is unique, and feeding more text extends it.
- `StreamDecoder` (decoder.dfy): how one line is classified (skip, the
  `[DONE]` sentinel, or a piece of reply). The inner line loop is `Drain`;
  the outer chunk loop is `Decode`. `ReadLines` and `ReadStream` are the two
  loops as the page writes them, proved equal to `Drain` and `Decode`.
  `JSON.parse` and the read of `choices[0].delta.content` are a parameter
  `parse: string -> Payload`.
- `DecoderProperties` (decoder_properties.dfy): properties of the decoder.
  - The exact classification rules.
  - Chunk-boundary independence: when no complete line is `[DONE]`, the
    reply does not depend on where the chunks were cut.
  - An unterminated tail never yields a piece.
  - Where the inner loop stops on the sentinel.
  - Worked lines from the protocol.
- `Conversation` (conversation.dfy): the message list and the request body.
  - The response is a parameter: rejected, HTTP error, no body, or a stream
    of chunks optionally followed by a read failure.
  - One exchange is the sequence of page states it passes through.
  - The submit gate.
- `VoiceInput` (voice_input.dfy), `SpeechOutput` (speech_output.dfy): the
  two hooks as state machines.
  - Requests to the engines and events from them are explicit values.
  - Each hook has a run function and an independent reference for its
    state after any sequence of actions.
- `ChatPage` (chatpage.dfy): the transcript-to-input effect and the two
  toggle buttons.

React state updates are applied in the order the page issues them.

Two behaviours of the page are easy to misread:

- The `[DONE]` sentinel does not end the stream. It only `break`s the inner
  loop over the current chunk's lines; lines after it stay in the buffer and
  are read when the next chunk arrives (`SentinelLeavesLineForNextChunk`,
  `SentinelEndsOnlyTheChunk`).
- A failure while the reply streams in keeps the question.
  `prev.slice(0, -1)` drops only the partial reply
  (`FailureDuringStreamKeepsQuestion`). Only a failure before any stream
  removes the question (`FailureBeforeStreamRestoresList`).

## Model

| member | source | states |
|---|---|---|
| Text.Trim | src/pages/Index.tsx:91-94 | the result is empty exactly when the string is white space only, in the ECMAScript sense; a non-empty result neither starts nor ends with white space, and is no longer than the input |
| Text.TrimIsInfix | src/pages/Index.tsx:91-94 | the trimmed string is the infix of the input that starts where the leading white space ends, and only white space precedes and follows it |
| Text.TrimUnique | src/pages/Index.tsx:91-94 | white space, then a part that is empty or has visible characters at both ends, then white space, trims to exactly that part |
| Text.IndexOf | src/pages/Index.tsx:86 | -1 exactly when the character does not occur; otherwise the character sits at that position and not before it |
| Text.TrimIdempotent | src/pages/Index.tsx:94 | trimming an already trimmed payload changes nothing |
| Framing.SplitLines | src/pages/Index.tsx:85-88 | repeatedly cutting at the first '\n' gives '\n'-free lines and a '\n'-free tail that, each line followed by '\n', make up the text exactly |
| Framing.SplitUnique | src/pages/Index.tsx:85-88 | any way of writing the text as '\n'-free lines, each terminated, then a '\n'-free tail, is the cut the loop makes |
| Framing.SplitAppend | src/pages/Index.tsx:83-88 | the lines of the text after a chunk is appended are the earlier lines followed by the lines found in the old tail plus the chunk |
| Framing.UnterminatedTextAddsNoLine | src/pages/Index.tsx:83-88 | text without '\n' completes no line; it only lengthens the tail |
| StreamDecoder.StripCR | src/pages/Index.tsx:90 | one trailing '\r' is removed when present, and the line is otherwise unchanged |
| StreamDecoder.ClassifyLine | src/pages/Index.tsx:90-113 | only data lines yield anything; a line is the sentinel exactly when it is a data line whose trimmed payload is `[DONE]`; a piece is the non-empty content the parser found in a payload other than `[DONE]` |
| StreamDecoder.DrainFraming | src/pages/Index.tsx:86-114 | one run of the inner loop: the lines taken off, each with its '\n', followed by the buffer left, are the buffer it started with; the pieces come from those lines in order; an unstopped run leaves no '\n' and met no sentinel; a stopped run stopped at its last line and at no earlier one |
| StreamDecoder.DrainWithoutDone | src/pages/Index.tsx:86-114 | when no complete line is the sentinel, the inner loop takes off exactly the complete lines and keeps exactly the unterminated tail |
| StreamDecoder.Decode | src/pages/Index.tsx:79-115 | after any chunks, the lines taken off plus the buffer are all text received; the pieces are those of the lines taken off; unless the sentinel stopped the last chunk, no '\n' remains in the buffer |
| StreamDecoder.ReadStream | src/pages/Index.tsx:74-115 | the outer read loop as written ends with the accumulated reply equal to the pieces of the stream concatenated, and with the decoder's buffer |
| StreamDecoder.ReadLines | src/pages/Index.tsx:85-114 | the inner loop as written, with its `break` on the sentinel, leaves the buffer the line-by-line definition leaves and appends exactly its pieces to the reply |
| DecoderProperties.SkipRules | src/pages/Index.tsx:91-92 | a comment, a blank line, or a line without the exact "data: " prefix yields nothing |
| DecoderProperties.DeltaExactly | src/pages/Index.tsx:92-110 | a line yields piece `c` if and only if it is a data line, its payload is not `[DONE]`, and the payload parses to the non-empty content `c` |
| DecoderProperties.UnusablePayloadIgnored | src/pages/Index.tsx:97-113 | a payload that fails to parse, lacks content, or has empty content is skipped without ending the chunk |
| DecoderProperties.DecodeWithoutDone | src/pages/Index.tsx:79-115 | with no sentinel among the complete lines, the lines read are exactly the complete lines of all text received, each once and in order, and the buffer is exactly the unterminated tail |
| DecoderProperties.ChunkBoundaryIndependence | src/pages/Index.tsx:79-115 | two cuts of the same text into chunks give the same pieces and the same buffer |
| DecoderProperties.SameAsOneChunk | src/pages/Index.tsx:83 | when no complete line is `[DONE]`, the reply equals the reply of the whole text received as one chunk |
| DecoderProperties.UnterminatedTailYieldsNothing | src/pages/Index.tsx:79-88 | a final chunk without '\n' yields exactly the pieces an empty chunk would: it only lengthens the buffer, and only lines already buffered can still yield |
| DecoderProperties.UnterminatedTailAddsNoPiece | src/pages/Index.tsx:79-88 | in a stream with no `[DONE]` line, a final chunk without '\n' adds no piece at all |
| DecoderProperties.DrainUnterminated | src/pages/Index.tsx:83-88 | appending text without '\n' to the buffer changes nothing the inner loop does except the text left in the buffer, which gains that text |
| DecoderProperties.DrainStopsAtFirstSentinel | src/pages/Index.tsx:95 | a stopped inner loop has taken off a prefix of the buffer's complete lines ending with the first sentinel, and the lines after it, with the tail, stay in the buffer |
| DecoderProperties.StoppedRunTakesLeadingLines | src/pages/Index.tsx:86-95 | a stopped inner loop has taken off a prefix of the buffer's complete lines whose last is a sentinel, and the later lines with the tail stay in the buffer |
| DecoderProperties.CarriageReturnIgnored | src/pages/Index.tsx:90 | a CRLF line is classified like the same line without the '\r' |
| DecoderProperties.DataLineCarries | src/pages/Index.tsx:92-94 | "data: " followed by a payload with no surrounding white space is a data line carrying exactly that payload |
| DecoderProperties.HelloLineYieldsHi | src/pages/Index.tsx:94-101 | the line `data: {"choices":[{"delta":{"content":"Hi"}}]}` yields "Hi" |
| DecoderProperties.SentinelLine | src/pages/Index.tsx:94-95 | `data: [DONE]` is the sentinel |
| DecoderProperties.KeepAliveSkipped | src/pages/Index.tsx:91 | `: keep-alive` yields nothing |
| DecoderProperties.MissingSpaceSkipped | src/pages/Index.tsx:92 | `data:[DONE]`, without the space, is not a data line and does not stop anything |
| DecoderProperties.SentinelLeavesLineForNextChunk | src/pages/Index.tsx:79-95 | after the sentinel and a content line in one chunk the reply is still empty and the content line stays in the buffer; the next chunk makes it yield its piece |
| DecoderProperties.SentinelEndsOnlyTheChunk | src/pages/Index.tsx:79-95 | the same, with the protocol's own `data: [DONE]` and "Hi" lines |
| DecoderProperties.OneLineReply | src/pages/Index.tsx:79-110 | a stream of the one "Hi" content line gives the reply "Hi" |
| Conversation.RequestFor | src/pages/Index.tsx:56-59 | the body carries every message in order, and the user's name, or "there" exactly when no name is set; the name sent is never empty |
| Conversation.FailureOf | src/pages/Index.tsx:63-70 | the exchange fails exactly unless it is a stream read to its end; a rejected fetch or an unreadable error body reports its own reason; an HTTP error reports its non-empty `error` field, and "Failed to get response" when that field is missing or empty; a response without a body reports "No response body"; a stream reports its read failure, if any |
| Conversation.AppendMessage | src/pages/Index.tsx:42 | the list grows by one, keeps every earlier message and ends with the new one |
| Conversation.ReplaceLast | src/pages/Index.tsx:102-109 | the length is kept, every message but the last is kept, and the last becomes the new one; an empty list stays empty |
| Conversation.DropLast | src/pages/Index.tsx:123 | everything but the last message, which is the one dropped; an empty list stays empty |
| Conversation.DropLastUndoesAppend | src/pages/Index.tsx:123 | dropping the message just appended gives the list back |
| Conversation.ReplaceLastAfterAppend | src/pages/Index.tsx:102-109 | replacing the message just appended is appending the replacement |
| Conversation.SnapshotsShowReplySoFar | src/pages/Index.tsx:101-109 | after the k-th piece, the list shown is the list from before the reply plus an assistant message holding the first k+1 pieces concatenated |
| Conversation.ShownAfterAll | src/pages/Index.tsx:77-109 | once every piece has arrived, the assistant message holds all of them in order |
| Conversation.ReplyListsShape | src/pages/Index.tsx:77-109 | one list for the empty reply plus one per piece; every list starts with the question and what came before it; the last holds the whole reply |
| Conversation.StreamDeltas | src/pages/Index.tsx:100-101 | no piece of reply the page appends is empty, whatever the stream |
| StreamDecoder.LineClassifierNoEmptyDelta | src/pages/Index.tsx:99-100 | the stream's classifier never yields an empty piece, since only truthy content is appended |
| StreamDecoder.DeltasNonEmpty | src/pages/Index.tsx:86-114 | whatever the lines, a classifier without empty pieces makes the line loop yield no empty piece |
| Conversation.StreamDeltasAreLinePieces | src/pages/Index.tsx:79-115 | for a stream with no `[DONE]` line, the pieces shown are exactly the pieces of the complete lines of all text received, in order |
| Conversation.ShownLists | src/pages/Index.tsx:41-127 | the first list shown is the list with the question appended |
| Conversation.StreamChat | src/pages/Index.tsx:41-127 | the request holds the list with the question and the name; the error shown is the response's failure; the first state shows the question with the input cleared and loading set |
| Conversation.History | src/pages/Index.tsx:43-45 | one state per list shown, each loading and with an empty input, then the last list again with loading cleared |
| Conversation.HandleSubmit | src/pages/Index.tsx:129-133 | an exchange starts if and only if the input is not white space only and nothing is loading; the input is sent as typed, untrimmed |
| Conversation.ShownListsShape | src/pages/Index.tsx:116-123 | by case: with no stream the question is shown and then removed; a completed stream ends with the whole reply; a failed stream shows the whole reply and then only the question |
| Conversation.FailureBeforeStreamRestoresList | src/pages/Index.tsx:116-126 | a failure before any stream leaves the list as it was before the question, with loading cleared, and reports an error |
| Conversation.FailureDuringStreamKeepsQuestion | src/pages/Index.tsx:116-126 | a stream that fails part way drops the partial reply but keeps the question, and reports the failure |
| Conversation.CompletedStreamAppendsReply | src/pages/Index.tsx:77-126 | a stream read to its end leaves the earlier list plus the question and the assistant's complete reply, with no error |
| Conversation.LoadingUntilTheEnd | src/pages/Index.tsx:124-126 | with no voice event during the exchange: loading is set in every state of the exchange but the last, where it is cleared; the input stays empty throughout |
| Conversation.ShownListsKeepEarlier | src/pages/Index.tsx:42-123 | every list shown starts with the messages from before the question, in each case the page can produce |
| Conversation.EarlierMessagesKept | src/pages/Index.tsx:41-127 | no state the exchange passes through changes or loses a message from before the question |
| Conversation.ReplyOnlyGrows | src/pages/Index.tsx:101-109 | while the reply streams in, each list shown has the same length and the reply shown extends the one before it |
| Conversation.SubmitGateExamples | src/pages/Index.tsx:131 | nothing is sent while loading, for an empty input, or for white space only |
| Conversation.NothingToResubmit | src/pages/Index.tsx:129-133 | with no voice event during the exchange: after it the input is empty, so submitting again sends nothing |
| Conversation.SubmittedAndCompleted | src/pages/Index.tsx:129-133 | an input that passes the gate, answered by a complete stream, is sent with the earlier messages and ends the list with the question and the whole reply |
| Conversation.HelloExchange | src/pages/Index.tsx:17-133 | from the greeting, typing "hello" and receiving the "Hi" line sends the greeting and the question with the name "there", and ends with greeting, question and "Hi" |
| VoiceInput.Mount | src/hooks/useVoiceInput.ts:17-43 | a recognizer exists exactly when either constructor does, the standard one preferred, configured single-shot, interim, en-US; nothing is listening or heard yet |
| VoiceInput.StartListening | src/hooks/useVoiceInput.ts:45-51 | with a recognizer, the transcript is cleared, the recognizer started and listening set; without one, nothing at all |
| VoiceInput.StopListening | src/hooks/useVoiceInput.ts:53-58 | with a recognizer, it is stopped and listening cleared, keeping the transcript; without one, nothing at all |
| VoiceInput.Heard | src/hooks/useVoiceInput.ts:26-29 | a result event carries a transcript exactly when the result at its index exists and has an alternative, and then it is the first alternative |
| VoiceInput.OnEvent | src/hooks/useVoiceInput.ts:26-39 | a usable result replaces the transcript and leaves listening alone; an unusable one changes nothing; an error or the end clears listening only |
| VoiceInput.StopIdempotent | src/hooks/useVoiceInput.ts:53-58 | stopping twice is stopping once |
| VoiceInput.ErrorActsAsEnd | src/hooks/useVoiceInput.ts:32-39 | any error has the same effect as the end of the session |
| VoiceInput.ResultReplacesTranscript | src/hooks/useVoiceInput.ts:26-30 | a result sets the transcript regardless of what was heard before |
| VoiceInput.RunMatchesReference | src/hooks/useVoiceInput.ts:26-58 | after any sequence of actions the recognizer is the one made on mount; listening and the transcript are what the last relevant action decides |
| SpeechOutput.NewUtterance | src/hooks/useTextToSpeech.ts:11-14 | the utterance carries the text at rate, pitch and volume 1 |
| SpeechOutput.Speak | src/hooks/useTextToSpeech.ts:6-22 | with speech synthesis, whatever was queued is cancelled and exactly the new text queued, and speaking waits for its start event; without it, nothing |
| SpeechOutput.Stop | src/hooks/useTextToSpeech.ts:24-29 | with speech synthesis, everything is cancelled and speaking cleared; without it, nothing |
| SpeechOutput.OnEvent | src/hooks/useTextToSpeech.ts:16-18 | speaking is set exactly on the start event and cleared on end or error; the queue is untouched |
| SpeechOutput.StopIdempotent | src/hooks/useTextToSpeech.ts:24-29 | stopping twice is stopping once |
| SpeechOutput.SpeakReplaces | src/hooks/useTextToSpeech.ts:6-22 | speaking again replaces the earlier text rather than queueing behind it |
| SpeechOutput.RunMatchesReference | src/hooks/useTextToSpeech.ts:6-29 | after any sequence of actions the queue holds the last text spoken unless a later stop cancelled it, and speaking is what the last event or stop decided |
| SpeechOutput.AtMostOnePending | src/hooks/useTextToSpeech.ts:8-20 | at most one utterance is ever pending |
| ChatPage.SyncInput | src/pages/Index.tsx:35-39 | the input becomes the transcript exactly when the recognizer has stopped and the transcript is non-empty; otherwise it is kept |
| ChatPage.WithVoice | src/pages/Index.tsx:35-39 | a voice change leaves the messages and loading alone; when neither the transcript nor the listening flag changed the input is kept too, and otherwise the effect decides it: the transcript once listening has stopped and it is non-empty, the input as it was otherwise |
| ChatPage.HandleVoiceInput | src/pages/Index.tsx:135-141 | with a recognizer, `handleVoiceInput` flips listening, starting clears the transcript and stopping keeps it, and the input is what the transcript effect makes of the new voice state; without one, it does nothing; the messages, loading and speech are never touched |
| ChatPage.PressMicrophone | src/pages/Index.tsx:238-250 | the microphone button exists only with a recognizer and is disabled while a reply loads: a press then changes nothing; otherwise starting clears the transcript and keeps the input, and stopping puts a non-empty transcript in the input; messages, loading and speech are never touched |
| ChatPage.MicrophonePressIsHandler | src/pages/Index.tsx:243-244 | a press of the microphone button either changes nothing or is `handleVoiceInput` on a page with no reply loading |
| ChatPage.HandleSpeak | src/pages/Index.tsx:143-149 | `handleSpeak` stops speech while speaking and otherwise speaks the reply; the chat and voice state are untouched |
| ChatPage.PressSpeaker | src/components/ChatMessage.tsx:32-42 | only a reply has a speaker button, and it is disabled while speaking: a press changes nothing then, never changes whether speech plays, and otherwise queues exactly that reply |
| ChatPage.SpeakerPressNeverStops | src/components/ChatMessage.tsx:36-37 | a press of the speaker button either changes nothing or is `handleSpeak` speaking a reply while nothing plays, so its stop branch is never taken from the page |
| ChatPage.ListeningLeavesInputAlone | src/pages/Index.tsx:35-39 | while listening, results never touch the input box |
| ChatPage.DictationFillsInput | src/pages/Index.tsx:35-39 | on a page with no reply loading, pressing the microphone, hearing a text and the session ending puts that text in the input box, replacing what was typed |
| ChatPage.VoiceToggleTwice | src/pages/Index.tsx:135-141 | pressing the microphone twice with no reply loading leaves the recognizer not listening, with an empty transcript; while a reply loads, the two presses change nothing |
| ChatPage.SpeakerButton | src/pages/Index.tsx:143-149 | `handleSpeak` while speaking cancels everything; otherwise it queues exactly that reply |

## Left out

- Rendering: the JSX, `VoiceVisualizer`, the settings panel and the user-name field, and of `ChatMessage` everything but its speaker button (`PressSpeaker`); the microphone button's gate is `PressMicrophone`. These are presentation only.
- The scroll-into-view effect (src/pages/Index.tsx:31-33), the toast and `console.error`. They are side effects with no state the model keeps.
- The URL, headers and HTTP method of the `fetch`. These are configuration passed to the browser.
- The network exchange itself is a `Response` parameter. The model has no timing and no cancellation.
- `TextDecoder`: chunks arrive as already-decoded text. A multi-byte character split across chunks is not modelled.
- `JSON.parse` and the optional-chaining read of the content field are a `parse` parameter.
- A content field of a non-string type is not modelled: a number, say, which `+=` would turn into text.
- The `error` field of an HTTP error body and the failure reasons are taken to be strings. A JSON `null` error body, which makes `errorData.error` throw, and the 'Failed to send message' fallback for non-`Error` throws are not modelled.
- React's asynchronous, batched state updates and any interleaving of two exchanges are not modelled. The submit gate's loading flag is what prevents a second exchange. Updates apply in the order issued.
- Engine behaviour beyond the events the hooks handle is not modelled. Examples are calling `start` on a recognizer that is already started, results arriving after `stop`, and the events a cancelled utterance still fires.
- The speech synthesis `isSupported` flag (src/hooks/useTextToSpeech.ts:35) is the `synthesisPresent` field of the state. It has no operation of its own.
- The page has no wake-word mode.
- DecoderProperties.ChunkBoundaryIndependence: stated only for streams in which no complete line is `[DONE]`. With a sentinel the reply does depend on the chunk boundaries, because the sentinel ends only its own chunk (`SentinelLeavesLineForNextChunk`).
- DecoderProperties.DecodeWithoutDone: stated only for streams without a `[DONE]` line, for the same reason. `DrainStopsAtFirstSentinel` covers the stopped case of a single chunk.
- Conversation.LoadingUntilTheEnd: an exchange is modelled without voice events inside it. Send does not look at the listening flag (src/pages/Index.tsx:254), so a recognizer session started before the question can end while the reply loads; the transcript effect (src/pages/Index.tsx:35-39) then fills the input, which need not stay empty.
- Conversation.NothingToResubmit: for the same reason, a transcript arriving during the exchange can leave text to submit afterwards.
- ChatPage.SpeakerButton: states `handleSpeak` on its own. The page reaches it only through the speaker button, which is disabled while speaking (src/components/ChatMessage.tsx:37), so the stop branch is never taken from the page (`SpeakerPressNeverStops`).
- DecoderProperties.SameAsOneChunk: stated only when no complete line is `[DONE]`. With a sentinel it fails. Take D the line `data: [DONE]` and H a content line. The chunks "D\nH\n" and "D\n" give H's piece, because H waits in the buffer for the second chunk. The same text as one chunk gives nothing, because the first sentinel ends the only chunk.
- ChatPage.HandleVoiceInput: states `handleVoiceInput` on its own. The page reaches it only through the microphone button, which is disabled while a reply loads (src/pages/Index.tsx:244); `PressMicrophone` states the press.

=== FILE: chatpage.dfy ===
/**
  The chat page's glue between the conversation and the two speech hooks: the
  effect that copies a finished transcript into the input box, the microphone
  button, and the button that reads a reply aloud.
 */
module ChatPage {
  import opened Conversation
  import VoiceInput
  import SpeechOutput

  /**
    The transcript effect: once the recognizer is no longer listening, a
    non-empty transcript replaces the input; otherwise the input is kept.
   */
  function SyncInput(input: string, transcript: string, isListening: bool): (r: string)
    ensures r == input || r == transcript
    ensures isListening || transcript == "" ==> r == input
    ensures !isListening && transcript != "" ==> r == transcript
  {
    if transcript != "" && !isListening then transcript else input
  }

  /** The page state the glue touches. */
  datatype Page = Page(chat: ChatState, voice: VoiceInput.VoiceState, speech: SpeechOutput.SpeechState)

  /**
    A change of the voice state, followed by the transcript effect, which
    runs only when the transcript or the listening flag changed.
   */
  function WithVoice(p: Page, v: VoiceInput.VoiceState): (r: Page)
    ensures r.voice == v && r.speech == p.speech
    ensures r.chat.messages == p.chat.messages && r.chat.isLoading == p.chat.isLoading
    ensures v.transcript == p.voice.transcript && v.isListening == p.voice.isListening ==> r.chat == p.chat
    ensures !(v.transcript == p.voice.transcript && v.isListening == p.voice.isListening) ==>
              r.chat.input == SyncInput(p.chat.input, v.transcript, v.isListening)
  {
    if v.transcript == p.voice.transcript && v.isListening == p.voice.isListening then p.(voice := v)
    else p.(voice := v, chat := p.chat.(input := SyncInput(p.chat.input, v.transcript, v.isListening)))
  }

  /**
    `handleVoiceInput`: stop when listening, start otherwise, then the
    transcript effect. The page calls it only through the microphone button,
    see `PressMicrophone`.
   */
  function HandleVoiceInput(p: Page): (r: Page)
    ensures VoiceInput.IsSupported(p.voice) ==> r.voice.isListening == !p.voice.isListening
    ensures !VoiceInput.IsSupported(p.voice) ==> r == p
    ensures !p.voice.isListening && VoiceInput.IsSupported(p.voice) ==> r.voice.transcript == ""
    ensures p.voice.isListening ==> r.voice.transcript == p.voice.transcript
    ensures r.speech == p.speech && r.chat.messages == p.chat.messages && r.chat.isLoading == p.chat.isLoading
    ensures VoiceInput.IsSupported(p.voice) ==>
              r.chat.input == SyncInput(p.chat.input, r.voice.transcript, r.voice.isListening)
  {
    if p.voice.isListening then WithVoice(p, VoiceInput.StopListening(p.voice).state)
    else WithVoice(p, VoiceInput.StartListening(p.voice).state)
  }

  /**
    Pressing the microphone button, which is disabled while a reply loads: a
    press then changes nothing, and otherwise it is `handleVoiceInput`.
   */
  function PressMicrophone(p: Page): (r: Page)
    ensures r.speech == p.speech && r.chat.messages == p.chat.messages && r.chat.isLoading == p.chat.isLoading
    ensures p.chat.isLoading || !VoiceInput.IsSupported(p.voice) ==> r == p
    ensures !p.chat.isLoading && VoiceInput.IsSupported(p.voice) ==>
              && r.voice.isListening == !p.voice.isListening
              && (!p.voice.isListening ==> r.voice.transcript == "" && r.chat.input == p.chat.input)
              && (p.voice.isListening ==> r.voice.transcript == p.voice.transcript
                                          && r.chat.input == SyncInput(p.chat.input, p.voice.transcript, false))
  {
    if p.chat.isLoading then p else HandleVoiceInput(p)
  }

  /**
    A press of the microphone button either changes nothing or is
    `handleVoiceInput` on a page with no reply loading.
   */
  lemma MicrophonePressIsHandler(p: Page)
    ensures PressMicrophone(p) == p || (!p.chat.isLoading && PressMicrophone(p) == HandleVoiceInput(p))
  {
  }

  /** An event from the recognizer, followed by the transcript effect. */
  function OnRecognition(p: Page, ev: VoiceInput.RecognitionEvent): Page {
    WithVoice(p, VoiceInput.OnEvent(p.voice, ev))
  }

  /**
    `handleSpeak`: stop when speaking, otherwise speak that reply. The page
    calls it only through the speaker button, see `PressSpeaker`.
   */
  function HandleSpeak(p: Page, text: string): (r: Page)
    ensures r.chat == p.chat && r.voice == p.voice
    ensures p.speech.isSpeaking ==> r.speech == SpeechOutput.Stop(p.speech)
    ensures !p.speech.isSpeaking ==> r.speech == SpeechOutput.Speak(p.speech, text)
  {
    if p.speech.isSpeaking then p.(speech := SpeechOutput.Stop(p.speech))
    else p.(speech := SpeechOutput.Speak(p.speech, text))
  }

  /**
    Pressing the speaker button under message `m`. Only replies carry the
    button, and it is disabled while speech plays, so a press reaches
    `handleSpeak` only for a reply and only when nothing is speaking.
   */
  function PressSpeaker(p: Page, m: Message): (r: Page)
    ensures r.chat == p.chat && r.voice == p.voice
    ensures r.speech.isSpeaking == p.speech.isSpeaking
    ensures m.role == User || p.speech.isSpeaking || !p.speech.synthesisPresent ==> r == p
    ensures m.role == Assistant && !p.speech.isSpeaking && p.speech.synthesisPresent ==>
              r.speech.queue == [SpeechOutput.NewUtterance(m.content)]
  {
    if m.role == Assistant && !p.speech.isSpeaking then HandleSpeak(p, m.content) else p
  }

  /**
    The stop branch of `handleSpeak` is out of the button's reach: a press
    either changes nothing or is `handleSpeak` speaking a reply while
    nothing else is.
   */
  lemma SpeakerPressNeverStops(p: Page, m: Message)
    ensures PressSpeaker(p, m) == p
            || (m.role == Assistant && !p.speech.isSpeaking
                && PressSpeaker(p, m) == HandleSpeak(p, m.content)
                && PressSpeaker(p, m).speech == SpeechOutput.Speak(p.speech, m.content))
  {
  }

  /** While the recognizer listens, nothing it reports touches the input box. */
  lemma ListeningLeavesInputAlone(p: Page, ev: VoiceInput.RecognitionEvent)
    requires p.voice.isListening && ev.Result?
    ensures OnRecognition(p, ev).chat == p.chat
  {
  }

  /**
    Dictation: pressing the microphone on an idle page, hearing `t`, and the
    session ending puts `t` in the input box, replacing whatever was typed.
   */
  lemma DictationFillsInput(p: Page, t: string)
    requires VoiceInput.IsSupported(p.voice) && !p.voice.isListening && !p.chat.isLoading && t != ""
    ensures var started := PressMicrophone(p);
            var heard := OnRecognition(started, VoiceInput.Result(0, [[t]]));
            var ended := OnRecognition(heard, VoiceInput.End);
            && ended.chat.input == t
            && !ended.voice.isListening
            && ended.chat.messages == p.chat.messages
  {
  }

  /**
    Pressing the microphone twice on a page with a recognizer and no reply
    loading leaves it not listening as before, with an empty transcript; while
    a reply loads, both presses change nothing.
   */
  lemma VoiceToggleTwice(p: Page)
    requires VoiceInput.IsSupported(p.voice) && !p.voice.isListening
    ensures var twice := PressMicrophone(PressMicrophone(p));
            && (!p.chat.isLoading ==> !twice.voice.isListening && twice.voice.transcript == "")
            && (p.chat.isLoading ==> twice == p)
  {
  }

  /** `handleSpeak` while speaking stops everything; when not, it queues exactly that reply. */
  lemma SpeakerButton(p: Page, text: string)
    requires p.speech.synthesisPresent
    ensures p.speech.isSpeaking ==> !HandleSpeak(p, text).speech.isSpeaking && HandleSpeak(p, text).speech.queue == []
    ensures !p.speech.isSpeaking ==> HandleSpeak(p, text).speech.queue == [SpeechOutput.NewUtterance(text)]
  {
  }
}

=== FILE: conversation.dfy ===
/**
  The chat page's conversation: the message list, the submit gate, the request
  sent for a new question, and how the list changes while the reply streams in
  and when anything fails.

  The outcome of the network exchange is a parameter: the request is either
  rejected outright, answered with an error status, answered without a body,
  or answered with a stream whose chunks are read one by one and which may
  fail after them. State updates are applied one after another, in the order
  the page issues them.
 */
module Conversation {
  import opened Options
  import opened Text
  import opened Framing
  import opened StreamDecoder
  import DecoderProperties

  datatype Role = User | Assistant

  datatype Message = Message(role: Role, content: string)

  const Greeting := "Hey! I'm Siva, your AI assistant. How can I help you today?"

  /** The page state this part of the model touches: the messages shown, the input box and the loading flag. */
  datatype ChatState = ChatState(messages: seq<Message>, input: string, isLoading: bool)

  /** The page as it first appears: one greeting from the assistant, an empty input, nothing loading. */
  const InitialChat := ChatState([Message(Assistant, Greeting)], "", false)

  /** The JSON body posted to the chat endpoint. */
  datatype ChatRequest = ChatRequest(messages: seq<Message>, userName: string)

  const DefaultName := "there"
  const FailedToGetResponse := "Failed to get response"
  const NoResponseBody := "No response body"

  /** How the exchange with the chat endpoint goes. */
  datatype Response =
    | Rejected(reason: string)                           // the request itself fails
    | HttpError(errorField: Option<string>)              // a non-OK status whose JSON body may hold `error`
    | UnreadableHttpError(reason: string)                // a non-OK status whose body is not JSON
    | NoBody                                             // an OK status without a body
    | Streamed(chunks: seq<string>, failure: Option<string>) // the chunks read, then possibly a read failure

  /** The request for the messages shown plus the new question: every message, and the name, "there" when none is set. */
  function RequestFor(messages: seq<Message>, userName: string): (r: ChatRequest)
    ensures r.messages == messages
    ensures r.userName != ""
    ensures userName != "" ==> r.userName == userName
    ensures userName == "" ==> r.userName == DefaultName
  {
    ChatRequest(messages, if userName == "" then DefaultName else userName)
  }

  /** The text shown in the error notice, if the exchange fails. */
  function FailureOf(response: Response): (r: Option<string>)
    ensures r == None <==> response.Streamed? && response.failure == None
    ensures response.Rejected? ==> r == Some(response.reason)
    ensures response.UnreadableHttpError? ==> r == Some(response.reason)
    ensures response.HttpError? && response.errorField.Some? && response.errorField.value != "" ==>
              r == response.errorField
    ensures response.HttpError? && (response.errorField.None? || response.errorField.value == "") ==>
              r == Some(FailedToGetResponse)
    ensures response.NoBody? ==> r == Some(NoResponseBody)
    ensures response.Streamed? ==> r == response.failure
  {
    match response
    case Rejected(reason) => Some(reason)
    case HttpError(field) =>
      Some(if field.Some? && field.value != "" then field.value else FailedToGetResponse)
    case UnreadableHttpError(reason) => Some(reason)
    case NoBody => Some(NoResponseBody)
    case Streamed(_, failure) => failure
  }

  /** `[...messages, m]`. */
  function AppendMessage(messages: seq<Message>, m: Message): (r: seq<Message>)
    ensures |r| == |messages| + 1 && r[..|messages|] == messages && r[|messages|] == m
  {
    messages + [m]
  }

  /**
    `updated[updated.length - 1] = m` on a copy: the last message is replaced,
    and a list with no messages is left as it is.
   */
  function ReplaceLast(messages: seq<Message>, m: Message): (r: seq<Message>)
    ensures |r| == |messages|
    ensures |messages| > 0 ==> r[..|r| - 1] == messages[..|messages| - 1] && r[|r| - 1] == m
    ensures |messages| == 0 ==> r == []
  {
    if |messages| == 0 then messages else messages[..|messages| - 1] + [m]
  }

  /** `prev.slice(0, -1)`: everything but the last message; nothing from nothing. */
  function DropLast(messages: seq<Message>): (r: seq<Message>)
    ensures |messages| > 0 ==> |r| == |messages| - 1 && r + [messages[|messages| - 1]] == messages
    ensures |messages| == 0 ==> r == []
  {
    if |messages| == 0 then [] else messages[..|messages| - 1]
  }

  /** Dropping the message just appended gives the list back. */
  lemma DropLastUndoesAppend(messages: seq<Message>, m: Message)
    ensures DropLast(AppendMessage(messages, m)) == messages
  {
  }

  /** Replacing the message just appended is appending the replacement instead. */
  lemma ReplaceLastAfterAppend(messages: seq<Message>, m: Message, m': Message)
    ensures ReplaceLast(AppendMessage(messages, m), m') == AppendMessage(messages, m')
  {
    assert (messages + [m])[..|messages|] == messages;
  }

  /**
    The lists shown while the reply streams in: for each piece, the reply so far
    is extended by it and the last message replaced by the assistant's reply so far.
   */
  function Snapshots(messages: seq<Message>, reply: string, deltas: seq<string>): seq<seq<Message>>
    decreases |deltas|
  {
    if |deltas| == 0 then []
    else
      var reply' := reply + deltas[0];
      var shown := ReplaceLast(messages, Message(Assistant, reply'));
      [shown] + Snapshots(shown, reply', deltas[1..])
  }

  /**
    After the k-th piece the list is the list the stream started from with the
    assistant's reply holding the reply so far followed by the first k+1 pieces.
   */
  lemma {:induction false} SnapshotsShowReplySoFar(sent: seq<Message>, reply: string, deltas: seq<string>)
    ensures var s := Snapshots(sent + [Message(Assistant, reply)], reply, deltas);
            && |s| == |deltas|
            && forall k :: 0 <= k < |s| ==> s[k] == sent + [Message(Assistant, reply + Concat(deltas[..k + 1]))]
    decreases |deltas|
  {
    if |deltas| > 0 {
      var reply' := reply + deltas[0];
      var shown := ReplaceLast(sent + [Message(Assistant, reply)], Message(Assistant, reply'));
      ReplaceLastAfterAppend(sent, Message(Assistant, reply), Message(Assistant, reply'));
      assert shown == sent + [Message(Assistant, reply')];
      SnapshotsShowReplySoFar(sent, reply', deltas[1..]);
      var s := Snapshots(sent + [Message(Assistant, reply)], reply, deltas);
      forall k | 0 <= k < |s|
        ensures s[k] == sent + [Message(Assistant, reply + Concat(deltas[..k + 1]))]
      {
        ConcatFront(deltas, k);
        var rest := Concat(deltas[1..k + 1]);
        assert reply + Concat(deltas[..k + 1]) == reply' + rest;
        if k > 0 {
          assert s[k] == Snapshots(shown, reply', deltas[1..])[k - 1];
          assert deltas[1..][..k] == deltas[1..k + 1];
        } else {
          assert deltas[1..1] == [];
          assert reply' + rest == reply';
        }
      }
    }
  }

  /** The first k+1 pieces concatenated are the first piece followed by the next k. */
  lemma ConcatFront(deltas: seq<string>, k: int)
    requires 0 <= k < |deltas|
    ensures Concat(deltas[..k + 1]) == deltas[0] + Concat(deltas[1..k + 1])
  {
    assert deltas[..k + 1] == [deltas[0]] + deltas[1..k + 1];
    ConcatAppend([deltas[0]], deltas[1..k + 1]);
    ConcatSingle(deltas[0]);
  }

  /** The list shown once every piece has arrived. */
  function ShownAfter(messages: seq<Message>, deltas: seq<string>): seq<Message> {
    var s := Snapshots(messages, "", deltas);
    if |s| == 0 then messages else s[|s| - 1]
  }

  /** Once every piece has arrived, the reply shown is all of them in order. */
  lemma ShownAfterAll(sent: seq<Message>, deltas: seq<string>)
    ensures ShownAfter(sent + [Message(Assistant, "")], deltas) == sent + [Message(Assistant, Concat(deltas))]
  {
    SnapshotsShowReplySoFar(sent, "", deltas);
    if |deltas| > 0 {
      assert deltas[..|deltas|] == deltas;
      assert "" + Concat(deltas) == Concat(deltas);
    }
  }

  /** On a stream: the empty reply appended, then the list after each piece. */
  function ReplyLists(sent: seq<Message>, deltas: seq<string>): seq<seq<Message>> {
    var withReply := AppendMessage(sent, Message(Assistant, ""));
    [withReply] + Snapshots(withReply, "", deltas)
  }

  /** Every list shown on a stream starts with the question and what came before it, and the last holds the whole reply. */
  lemma ReplyListsShape(sent: seq<Message>, deltas: seq<string>)
    ensures var l := ReplyLists(sent, deltas);
            && |l| == |deltas| + 1
            && l[|l| - 1] == sent + [Message(Assistant, Concat(deltas))]
            && forall k :: 0 <= k < |l| ==> sent <= l[k]
  {
    var withReply := sent + [Message(Assistant, "")];
    var snaps := Snapshots(withReply, "", deltas);
    SnapshotsShowReplySoFar(sent, "", deltas);
    ShownAfterAll(sent, deltas);
    var l := ReplyLists(sent, deltas);
    forall k | 0 <= k < |l| ensures sent <= l[k] {
      if k > 0 {
        assert l[k] == snaps[k - 1];
      }
    }
  }

  /** The pieces of reply a response yields: those of its stream, or none without one. */
  function StreamDeltas(response: Response, parse: string -> Payload): (r: seq<string>)
    ensures NoEmptyPiece(r)
  {
    match response
    case Streamed(chunks, _) =>
      var d := Decode(chunks, LineClassifier(parse));
      LineClassifierNoEmptyDelta(parse);
      DeltasNonEmpty(d.consumed, LineClassifier(parse));
      d.deltas
    case _ => []
  }

  /**
    On a stream in which no complete line is the sentinel, the pieces are
    those of every complete line of the text received, in order, whatever
    the chunks.
   */
  lemma StreamDeltasAreLinePieces(response: Response, parse: string -> Payload)
    requires response.Streamed?
    requires NoDone(SplitLines(Concat(response.chunks)).lines, LineClassifier(parse))
    ensures StreamDeltas(response, parse) ==
              DeltasOf(SplitLines(Concat(response.chunks)).lines, LineClassifier(parse))
  {
    DecoderProperties.DecodeWithoutDone(response.chunks, LineClassifier(parse));
  }

  /**
    The messages shown while the question is handled, in order, before loading
    is cleared: the list with the question, then on a stream the lists of the
    reply growing, then after a failure the last list without its last message.
   */
  function ShownLists(sent: seq<Message>, streamed: bool, deltas: seq<string>, failed: bool): (r: seq<seq<Message>>)
    ensures |r| >= 1 && r[0] == sent
  {
    var shown := [sent] + (if streamed then ReplyLists(sent, deltas) else []);
    if failed then shown + [DropLast(shown[|shown| - 1])] else shown
  }

  /** What one question does: the request sent, every state the page passes through, and the error notice, if any. */
  datatype Exchange = Exchange(request: ChatRequest, history: seq<ChatState>, failure: Option<string>)

  /**
    `streamChat`: the question is appended and sent with everything before it,
    the input cleared and loading set; on a stream an empty assistant message is
    appended and grows with each piece; any failure drops the last message;
    loading is cleared at the end, on the last list shown.
   */
  function StreamChat(st: ChatState, userMessage: string, userName: string,
                      response: Response, parse: string -> Payload): (r: Exchange)
    ensures r.request == RequestFor(st.messages + [Message(User, userMessage)], userName)
    ensures r.failure == FailureOf(response)
    ensures |r.history| >= 2
    ensures r.history[0] == ChatState(st.messages + [Message(User, userMessage)], "", true)
  {
    var sent := AppendMessage(st.messages, Message(User, userMessage));
    var lists := ShownLists(sent, response.Streamed?, StreamDeltas(response, parse), FailureOf(response).Some?);
    Exchange(RequestFor(sent, userName), History(lists), FailureOf(response))
  }

  /** Each list shown, with loading set, then the last one again with loading cleared. */
  function History(lists: seq<seq<Message>>): (h: seq<ChatState>)
    requires |lists| > 0
    ensures |h| == |lists| + 1
    ensures forall k :: 0 <= k < |lists| ==> h[k] == ChatState(lists[k], "", true)
    ensures h[|lists|] == ChatState(lists[|lists| - 1], "", false)
  {
    seq(|lists|, k requires 0 <= k < |lists| => ChatState(lists[k], "", true))
      + [ChatState(lists[|lists| - 1], "", false)]
  }

  /** The state the page is left in. */
  function Final(e: Exchange): ChatState
    requires |e.history| > 0
  {
    e.history[|e.history| - 1]
  }

  /** The submit gate: a question is sent only when the input holds more than white space and nothing is loading; it is sent as typed, untrimmed. */
  function HandleSubmit(st: ChatState, userName: string, response: Response,
                        parse: string -> Payload): (r: Option<Exchange>)
    ensures r.Some? <==> !AllSpace(st.input) && !st.isLoading
    ensures r.Some? ==> r.value == StreamChat(st, st.input, userName, response, parse)
  {
    if Trim(st.input) == "" || st.isLoading then None
    else Some(StreamChat(st, st.input, userName, response, parse))
  }

  /**
    The lists shown, by case: without a stream, the question and then the list
    without it; with one, the last list holds the whole reply, and after a
    failure it is followed by the list with the question only. Every list
    starts with the question and what came before it, except the one a failure
    before any stream leaves.
   */
  lemma ShownListsShape(sent: seq<Message>, streamed: bool, deltas: seq<string>, failed: bool)
    requires |sent| > 0
    ensures var lists := ShownLists(sent, streamed, deltas, failed);
            var full := sent + [Message(Assistant, Concat(deltas))];
            && (!streamed && failed ==> lists == [sent, DropLast(sent)])
            && (streamed && !failed ==> lists[|lists| - 1] == full)
            && (streamed && failed ==> lists[|lists| - 2] == full && lists[|lists| - 1] == sent)
            && (streamed ==> forall k :: 0 <= k < |lists| ==> sent <= lists[k])
  {
    if streamed {
      var replies := ReplyLists(sent, deltas);
      ReplyListsShape(sent, deltas);
      DropLastUndoesAppend(sent, Message(Assistant, Concat(deltas)));
      var lists := ShownLists(sent, streamed, deltas, failed);
      forall k | 0 <= k < |lists| ensures sent <= lists[k] {
        if 1 <= k <= |replies| {
          assert lists[k] == replies[k - 1];
        }
      }
    }
  }

  /** A request that fails before any stream is read leaves the list as it was before the question and shows an error. */
  lemma FailureBeforeStreamRestoresList(st: ChatState, userMessage: string, userName: string,
                                        response: Response, parse: string -> Payload)
    requires !response.Streamed?
    ensures var e := StreamChat(st, userMessage, userName, response, parse);
            && Final(e) == ChatState(st.messages, "", false)
            && e.failure.Some?
  {
    var sent := st.messages + [Message(User, userMessage)];
    ShownListsShape(sent, false, [], true);
    DropLastUndoesAppend(st.messages, Message(User, userMessage));
  }

  /**
    A stream that fails part way keeps the question but drops the partial
    reply: the list ends as before plus the question.
   */
  lemma FailureDuringStreamKeepsQuestion(st: ChatState, userMessage: string, userName: string,
                                         response: Response, parse: string -> Payload)
    requires response.Streamed? && response.failure.Some?
    ensures var e := StreamChat(st, userMessage, userName, response, parse);
            && Final(e) == ChatState(st.messages + [Message(User, userMessage)], "", false)
            && e.failure == response.failure
  {
    var sent := st.messages + [Message(User, userMessage)];
    ShownListsShape(sent, true, StreamDeltas(response, parse), true);
  }

  /**
    A stream read to its end leaves the list as before plus the question and
    the assistant's reply: every piece of the stream, in order.
   */
  lemma CompletedStreamAppendsReply(st: ChatState, userMessage: string, userName: string,
                                    response: Response, parse: string -> Payload)
    requires response.Streamed? && response.failure.None?
    ensures var e := StreamChat(st, userMessage, userName, response, parse);
            && Final(e) == ChatState(st.messages + [Message(User, userMessage),
                                                    Message(Assistant, ReplyText(response.chunks, parse))], "", false)
            && e.failure == None
  {
    var sent := st.messages + [Message(User, userMessage)];
    var deltas := StreamDeltas(response, parse);
    ShownListsShape(sent, true, deltas, false);
    assert sent + [Message(Assistant, Concat(deltas))] ==
           st.messages + [Message(User, userMessage), Message(Assistant, Concat(deltas))];
  }

  /** Loading is set in every state the exchange passes through but the last, where it is cleared; the input stays empty throughout. */
  lemma LoadingUntilTheEnd(st: ChatState, userMessage: string, userName: string,
                           response: Response, parse: string -> Payload)
    ensures var h := StreamChat(st, userMessage, userName, response, parse).history;
            && (forall k :: 0 <= k < |h| - 1 ==> h[k].isLoading)
            && !h[|h| - 1].isLoading
            && (forall k :: 0 <= k < |h| ==> h[k].input == "")
  {
    StreamChatHistory(st, userMessage, userName, response, parse);
  }

  /** Every list shown starts with the messages from before the question, whatever the case. */
  lemma ShownListsKeepEarlier(before: seq<Message>, question: Message, streamed: bool, deltas: seq<string>, failed: bool)
    requires !streamed ==> failed
    ensures var lists := ShownLists(before + [question], streamed, deltas, failed);
            forall k :: 0 <= k < |lists| ==> before <= lists[k]
  {
    var sent := before + [question];
    ShownListsShape(sent, streamed, deltas, failed);
    DropLastUndoesAppend(before, question);
    var lists := ShownLists(sent, streamed, deltas, failed);
    forall k | 0 <= k < |lists| ensures before <= lists[k] {
      if streamed {
        assert lists[k][..|before|] == sent[..|before|];
      }
    }
  }

  /** The messages from before the question are never changed while it is handled: each list shown starts with them. */
  lemma EarlierMessagesKept(st: ChatState, userMessage: string, userName: string,
                            response: Response, parse: string -> Payload)
    ensures var h := StreamChat(st, userMessage, userName, response, parse).history;
            forall k :: 0 <= k < |h| ==> st.messages <= h[k].messages
  {
    var deltas := StreamDeltas(response, parse);
    var failed := FailureOf(response).Some?;
    var lists := ShownLists(st.messages + [Message(User, userMessage)], response.Streamed?, deltas, failed);
    StreamChatHistory(st, userMessage, userName, response, parse);
    ShownListsKeepEarlier(st.messages, Message(User, userMessage), response.Streamed?, deltas, failed);
    HistoryKeeps(st.messages, lists);
  }

  /** The states of an exchange are the history of the lists it shows. */
  lemma StreamChatHistory(st: ChatState, userMessage: string, userName: string,
                          response: Response, parse: string -> Payload)
    ensures StreamChat(st, userMessage, userName, response, parse).history ==
              History(ShownLists(st.messages + [Message(User, userMessage)], response.Streamed?,
                                 StreamDeltas(response, parse), FailureOf(response).Some?))
  {
  }

  /** What every list shown starts with, every state of the history starts with. */
  lemma HistoryKeeps(before: seq<Message>, lists: seq<seq<Message>>)
    requires |lists| > 0
    requires forall k :: 0 <= k < |lists| ==> before <= lists[k]
    ensures forall k :: 0 <= k < |History(lists)| ==> before <= History(lists)[k].messages
  {
  }

  /** While the reply streams in, each list shown extends the reply of the one before: text once shown is never taken back. */
  lemma ReplyOnlyGrows(sent: seq<Message>, deltas: seq<string>)
    ensures var s := Snapshots(sent + [Message(Assistant, "")], "", deltas);
            forall j, k :: 0 <= j <= k < |s| ==>
              |s[j]| == |s[k]| == |sent| + 1 && s[j][|sent|].content <= s[k][|sent|].content
  {
    SnapshotsShowReplySoFar(sent, "", deltas);
    var s: seq<seq<Message>> := Snapshots(sent + [Message(Assistant, "")], "", deltas);
    forall j, k | 0 <= j <= k < |s|
      ensures |s[j]| == |s[k]| == |sent| + 1 && s[j][|sent|].content <= s[k][|sent|].content
    {
      ConcatPrefix(deltas, j + 1, k + 1);
      LongerReply(sent, s[j], s[k], "" + Concat(deltas[..j + 1]), "" + Concat(deltas[..k + 1]));
    }
  }

  /** Two lists that differ only in a last reply, the earlier one a prefix of the later. */
  lemma LongerReply(sent: seq<Message>, a: seq<Message>, b: seq<Message>, x: string, y: string)
    requires a == sent + [Message(Assistant, x)] && b == sent + [Message(Assistant, y)] && x <= y
    ensures |a| == |b| == |sent| + 1 && a[|sent|].content <= b[|sent|].content
  {
  }

  /** Fewer leading pieces concatenate to a prefix of more of them. */
  lemma ConcatPrefix(deltas: seq<string>, j: int, k: int)
    requires 0 <= j <= k <= |deltas|
    ensures Concat(deltas[..j]) <= Concat(deltas[..k])
  {
    assert deltas[..k] == deltas[..j] + deltas[j..k];
    ConcatAppend(deltas[..j], deltas[j..k]);
  }

  /** Nothing is sent while loading, nor for an input of white space only. */
  lemma SubmitGateExamples(st: ChatState, userName: string, response: Response, parse: string -> Payload)
    ensures st.isLoading ==> HandleSubmit(st, userName, response, parse) == None
    ensures HandleSubmit(st.(input := " \t "), userName, response, parse) == None
    ensures HandleSubmit(st.(input := ""), userName, response, parse) == None
  {
    assert AllSpace(" \t ") by {
      assert " \t "[1] == '\t';
    }
  }

  /** A finished exchange leaves nothing to submit until something is typed. */
  lemma NothingToResubmit(st: ChatState, userMessage: string, userName: string,
                          response: Response, parse: string -> Payload, response': Response)
    ensures var e := StreamChat(st, userMessage, userName, response, parse);
            HandleSubmit(Final(e), userName, response', parse) == None
  {
  }

  /** A question that passes the gate and whose stream is read to its end ends with the question and the whole reply appended. */
  lemma SubmittedAndCompleted(st: ChatState, userName: string, response: Response, parse: string -> Payload)
    requires !AllSpace(st.input) && !st.isLoading
    requires response.Streamed? && response.failure.None?
    ensures var e := HandleSubmit(st, userName, response, parse);
            && e.Some?
            && e.value.request == RequestFor(st.messages + [Message(User, st.input)], userName)
            && Final(e.value) == ChatState(st.messages + [Message(User, st.input),
                                                          Message(Assistant, ReplyText(response.chunks, parse))], "", false)
  {
    CompletedStreamAppendsReply(st, st.input, userName, response, parse);
  }

  /** The one-line stream that says "Hi". */
  const HelloStream := Streamed([DecoderProperties.HelloLine + "\n"], None)

  /**
    From the greeting, typing "hello" and receiving a stream with one content
    line for "Hi" ends with the greeting, the question and the reply, and the
    request carries the greeting and the question, with the name "there".
   */
  lemma HelloExchange(parse: string -> Payload)
    requires parse(DecoderProperties.HelloPayload) == Parsed(Some("Hi"))
    ensures var e := HandleSubmit(InitialChat.(input := "hello"), "", HelloStream, parse);
            && e.Some?
            && e.value.request == ChatRequest([Message(Assistant, Greeting), Message(User, "hello")], "there")
            && Final(e.value) == ChatState([Message(Assistant, Greeting), Message(User, "hello"),
                                            Message(Assistant, "Hi")], "", false)
  {
    var st := InitialChat.(input := "hello");
    assert !AllSpace("hello") by { assert !IsSpace("hello"[0]); }
    DecoderProperties.OneLineReply(parse);
    SubmittedAndCompleted(st, "", HelloStream, parse);
    ListDisplays(Message(Assistant, Greeting), Message(User, "hello"), Message(Assistant, "Hi"));
  }

  /** Appending one-message lists gives the list displays the exchange is stated with. */
  lemma ListDisplays(a: Message, b: Message, c: Message)
    ensures [a] + [b] == [a, b] && [a] + [b, c] == [a, b, c]
  {
  }
}

=== FILE: decoder.dfy ===
/**
  The decoder of the streamed chat response: the read loop inside `streamChat`.
  Chunks arrive as already-decoded text and are appended to a buffer; every
  complete line is cut off the buffer and classified; data lines carry a JSON
  payload whose `choices[0].delta.content` is the next piece of the reply.
  JSON parsing is a parameter `parse` that either fails or reports the content
  field it found.
 */
module StreamDecoder {
  import opened Options
  import opened Text
  import opened Framing

  /** What `JSON.parse` and the read of `choices[0].delta.content` give for a payload. */
  datatype Payload = Malformed | Parsed(content: Option<string>)

  /** What one line contributes: nothing, the end sentinel, or a piece of the reply. */
  datatype LineOutcome = Skip | Done | Delta(text: string)

  const DataPrefix := "data: "
  const DoneSentinel := "[DONE]"

  /** Removes at most one trailing carriage return. */
  function StripCR(line: string): (r: string)
    ensures EndsWith(line, "\r") ==> r + "\r" == line
    ensures !EndsWith(line, "\r") ==> r == line
  {
    if EndsWith(line, "\r") then line[..|line| - 1] else line
  }

  /** A line that, once its carriage return is gone, begins with exactly "data: ". */
  predicate IsDataLine(line: string) {
    StartsWith(StripCR(line), DataPrefix)
  }

  /** The payload of a data line: what follows "data: ", trimmed. */
  function PayloadOf(line: string): string
    requires IsDataLine(line)
  {
    Trim(StripCR(line)[|DataPrefix|..])
  }

  /** A line beginning with "data: " is neither a comment nor blank. */
  lemma DataLineIsNeitherCommentNorBlank(l: string)
    requires StartsWith(l, DataPrefix)
    ensures !StartsWith(l, ":") && Trim(l) != ""
  {
    assert l[0] == 'd';
    NotBlankWhenFirstIsVisible(l);
  }

  /**
    The body of the inner loop for one line: comments, blank lines and lines
    without the exact data prefix are skipped; the sentinel ends the chunk;
    any other payload is parsed, and a parse failure or a missing or empty
    content field yields nothing.
   */
  function ClassifyLine(line: string, parse: string -> Payload): (r: LineOutcome)
    ensures r != Skip ==> IsDataLine(line)
    ensures r == Done <==> IsDataLine(line) && PayloadOf(line) == DoneSentinel
    ensures r.Delta? ==>
              && r.text != ""
              && IsDataLine(line)
              && PayloadOf(line) != DoneSentinel
              && parse(PayloadOf(line)) == Parsed(Some(r.text))
  {
    ClassifyStripped(StripCR(line), parse)
  }

  /** `ClassifyLine` once the carriage return is gone. */
  function ClassifyStripped(l: string, parse: string -> Payload): (r: LineOutcome)
    ensures r != Skip ==> StartsWith(l, DataPrefix)
    ensures r == Done <==> StartsWith(l, DataPrefix) && Trim(l[|DataPrefix|..]) == DoneSentinel
    ensures r.Delta? ==>
              && r.text != ""
              && StartsWith(l, DataPrefix)
              && Trim(l[|DataPrefix|..]) != DoneSentinel
              && parse(Trim(l[|DataPrefix|..])) == Parsed(Some(r.text))
  {
    if StartsWith(l, ":") || Trim(l) == "" then
      (if StartsWith(l, DataPrefix) then DataLineIsNeitherCommentNorBlank(l); Skip else Skip)
    else if !StartsWith(l, DataPrefix) then Skip
    else
      var payload := Trim(l[|DataPrefix|..]);
      if payload == DoneSentinel then Done
      else
        match parse(payload)
        case Parsed(Some(content)) => if content != "" then Delta(content) else Skip
        case _ => Skip
  }

  /**
    The line loops below are written against any classifier of lines; the
    stream's own is `ClassifyLine` with the payload parser fixed.
   */
  type Classifier = string -> LineOutcome

  function LineClassifier(parse: string -> Payload): Classifier {
    line => ClassifyLine(line, parse)
  }

  /** The piece of reply one line yields: its content, or nothing. */
  function Pieces(line: string, classify: Classifier): seq<string> {
    match classify(line)
    case Delta(c) => [c]
    case _ => []
  }

  /** The pieces of reply a sequence of lines yields, in order. */
  function DeltasOf(lines: seq<string>, classify: Classifier): seq<string>
    decreases |lines|
  {
    if |lines| == 0 then [] else Pieces(lines[0], classify) + DeltasOf(lines[1..], classify)
  }

  /** Every piece is non-empty: the page only appends content that is truthy. */
  predicate NoEmptyPiece(pieces: seq<string>) {
    forall k :: 0 <= k < |pieces| ==> pieces[k] != ""
  }

  /** A classifier whose every piece has text. */
  ghost predicate NoEmptyDelta(classify: Classifier) {
    forall line :: classify(line).Delta? ==> classify(line).text != ""
  }

  /** The stream's own classifier is one: the page only appends content that is truthy. */
  lemma LineClassifierNoEmptyDelta(parse: string -> Payload)
    ensures NoEmptyDelta(LineClassifier(parse))
  {
    forall line | LineClassifier(parse)(line).Delta? ensures LineClassifier(parse)(line).text != "" {
      assert LineClassifier(parse)(line) == ClassifyLine(line, parse);
    }
  }

  /** Lines read by such a classifier never yield an empty piece. */
  lemma {:induction false} DeltasNonEmpty(lines: seq<string>, classify: Classifier)
    requires NoEmptyDelta(classify)
    ensures NoEmptyPiece(DeltasOf(lines, classify))
    decreases |lines|
  {
    if |lines| > 0 {
      var first := Pieces(lines[0], classify);
      var rest := DeltasOf(lines[1..], classify);
      DeltasNonEmpty(lines[1..], classify);
      forall k | 0 <= k < |first + rest| ensures (first + rest)[k] != "" {
        if k >= |first| { assert (first + rest)[k] == rest[k - |first|]; }
      }
    }
  }

  /** No line is the end sentinel. */
  predicate NoDone(lines: seq<string>, classify: Classifier) {
    forall k :: 0 <= k < |lines| ==> classify(lines[k]) != Done
  }

  /** The last line, and no earlier one, is the sentinel. */
  predicate EndsAtDone(lines: seq<string>, classify: Classifier) {
    && |lines| > 0
    && classify(lines[|lines| - 1]) == Done
    && NoDone(lines[..|lines| - 1], classify)
  }

  /** What is left once the lines of one chunk have been handled. */
  datatype Drained = Drained(buffer: string, consumed: seq<string>, deltas: seq<string>, stopped: bool)

  /**
    The inner loop over the buffer: cut off the first line while there is a
    '\n', classify it, and on the sentinel leave the loop with the remaining
    lines still in the buffer. `DrainFraming` states what it guarantees.
   */
  function Drain(buf: string, classify: Classifier): Drained
    decreases |buf|
  {
    var i := IndexOf(buf, '\n');
    if i < 0 then Drained(buf, [], [], false)
    else
      var line := buf[..i];
      var rest := buf[i + 1..];
      if classify(line) == Done then Drained(rest, [line], [], true)
      else
        var d := Drain(rest, classify);
        Drained(d.buffer, [line] + d.consumed, Pieces(line, classify) + d.deltas, d.stopped)
  }

  /**
    What one run of the inner loop guarantees: the consumed lines, each with
    its '\n', followed by the buffer left over, are the buffer it started
    with; the pieces come only from the consumed lines, in order; a run that
    was not stopped leaves no '\n' behind and met no sentinel, and a stopped
    one was stopped by its last consumed line and by no earlier one.
   */
  lemma {:induction false} DrainFraming(buf: string, classify: Classifier)
    ensures Framed(buf, Drain(buf, classify), classify)
    decreases |buf|
  {
    var i := IndexOf(buf, '\n');
    if i < 0 {
      assert Join([]) + buf == buf;
    } else if classify(buf[..i]) == Done {
      FramedAtSentinel(buf, classify);
    } else {
      DrainFraming(buf[i + 1..], classify);
      FramedStep(buf, classify);
    }
  }

  /** The four facts `DrainFraming` states about a run `r` of the inner loop over `buf`. */
  predicate Framed(buf: string, r: Drained, classify: Classifier) {
    && Join(r.consumed) + r.buffer == buf
    && r.deltas == DeltasOf(r.consumed, classify)
    && (!r.stopped ==> '\n' !in r.buffer && NoDone(r.consumed, classify))
    && (r.stopped ==> EndsAtDone(r.consumed, classify))
  }

  /** A run whose first line is the sentinel takes that line alone. */
  lemma FramedAtSentinel(buf: string, classify: Classifier)
    requires IndexOf(buf, '\n') >= 0 && classify(buf[..IndexOf(buf, '\n')]) == Done
    ensures Framed(buf, Drain(buf, classify), classify)
  {
    var i := IndexOf(buf, '\n');
    var line := buf[..i];
    JoinCons(buf, i, [], buf[i + 1..]);
    assert DeltasOf([line], classify) == [] by { assert [line][1..] == []; }
    assert [line][..0] == [];
  }

  /** A run that takes one ordinary line and then runs on the rest keeps the framing of the rest. */
  lemma FramedStep(buf: string, classify: Classifier)
    requires IndexOf(buf, '\n') >= 0 && classify(buf[..IndexOf(buf, '\n')]) != Done
    requires Framed(buf[IndexOf(buf, '\n') + 1..], Drain(buf[IndexOf(buf, '\n') + 1..], classify), classify)
    ensures Framed(buf, Drain(buf, classify), classify)
  {
    var i := IndexOf(buf, '\n');
    var line := buf[..i];
    var d := Drain(buf[i + 1..], classify);
    JoinCons(buf, i, d.consumed, d.buffer);
    DeltasOfCons(line, d.consumed, classify);
    NoDoneCons(line, d.consumed, classify);
  }

  lemma DeltasOfCons(line: string, lines: seq<string>, classify: Classifier)
    ensures DeltasOf([line] + lines, classify) == Pieces(line, classify) + DeltasOf(lines, classify)
  {
    assert ([line] + lines)[1..] == lines;
  }

  /** A line that is not the sentinel, put in front, keeps both `NoDone` and `EndsAtDone`. */
  lemma NoDoneCons(line: string, lines: seq<string>, classify: Classifier)
    requires classify(line) != Done
    ensures NoDone(lines, classify) ==> NoDone([line] + lines, classify)
    ensures EndsAtDone(lines, classify) ==> EndsAtDone([line] + lines, classify)
  {
    var all := [line] + lines;
    forall k | 0 < k < |all| ensures all[k] == lines[k - 1] { }
    if |lines| > 0 {
      var front := all[..|all| - 1];
      assert front == [line] + lines[..|lines| - 1];
      forall k | 0 < k < |front| ensures front[k] == lines[k - 1] { }
    }
  }

  /** One turn of the inner loop, as `Drain` takes it. */
  lemma DrainStep(buf: string, classify: Classifier)
    requires IndexOf(buf, '\n') >= 0
    ensures var i := IndexOf(buf, '\n');
            var line := buf[..i];
            var rest := buf[i + 1..];
            Drain(buf, classify) ==
              if classify(line) == Done then Drained(rest, [line], [], true)
              else
                var d := Drain(rest, classify);
                Drained(d.buffer, [line] + d.consumed, Pieces(line, classify) + d.deltas, d.stopped)
  {
  }

  /** When no complete line of the buffer is the sentinel, every one is consumed and nothing is stopped. */
  lemma {:induction false} DrainWithoutDone(buf: string, classify: Classifier)
    requires NoDone(SplitLines(buf).lines, classify)
    ensures DrainsEveryLine(buf, classify)
    decreases |buf|
  {
    var i := IndexOf(buf, '\n');
    if i >= 0 {
      NoDoneTail(buf, classify);
      DrainWithoutDone(buf[i + 1..], classify);
      DrainWithoutDoneStep(buf, classify);
    }
  }

  /** The inner loop consumes every complete line of `buf`, keeps the unfinished tail, and is not stopped. */
  predicate DrainsEveryLine(buf: string, classify: Classifier) {
    Drain(buf, classify) == Drained(SplitLines(buf).tail, SplitLines(buf).lines,
                                    DeltasOf(SplitLines(buf).lines, classify), false)
  }

  /** The lines after the first complete one of a buffer without the sentinel have no sentinel either. */
  lemma NoDoneTail(buf: string, classify: Classifier)
    requires IndexOf(buf, '\n') >= 0 && NoDone(SplitLines(buf).lines, classify)
    ensures classify(buf[..IndexOf(buf, '\n')]) != Done
    ensures NoDone(SplitLines(buf[IndexOf(buf, '\n') + 1..]).lines, classify)
  {
    var i := IndexOf(buf, '\n');
    var lines := SplitLines(buf).lines;
    var restLines := SplitLines(buf[i + 1..]).lines;
    assert lines == [buf[..i]] + restLines;
    assert classify(lines[0]) != Done;
    forall k | 0 <= k < |restLines| ensures classify(restLines[k]) != Done {
      assert restLines[k] == lines[k + 1];
    }
  }

  /** One ordinary line in front of a run that consumed every line of the rest. */
  lemma DrainWithoutDoneStep(buf: string, classify: Classifier)
    requires IndexOf(buf, '\n') >= 0 && classify(buf[..IndexOf(buf, '\n')]) != Done
    requires DrainsEveryLine(buf[IndexOf(buf, '\n') + 1..], classify)
    ensures DrainsEveryLine(buf, classify)
  {
    var i := IndexOf(buf, '\n');
    var restLines := SplitLines(buf[i + 1..]).lines;
    assert SplitLines(buf).lines == [buf[..i]] + restLines;
    DrainStep(buf, classify);
    DeltasOfCons(buf[..i], restLines, classify);
  }


  /** The state of the read loop after some chunks: buffer, every line taken off it, and the pieces found. */
  datatype Decoded = Decoded(buffer: string, consumed: seq<string>, deltas: seq<string>, stopped: bool)

  /**
    The outer read loop over the chunks received so far: each chunk is added to
    the buffer and the buffer drained. The lines taken off and the buffer make
    up all text received, the pieces are those of the lines taken off, and a
    last chunk that did not meet the sentinel leaves no '\n' in the buffer.
   */
  function Decode(chunks: seq<string>, classify: Classifier): (r: Decoded)
    ensures Join(r.consumed) + r.buffer == Concat(chunks)
    ensures r.deltas == DeltasOf(r.consumed, classify)
    ensures !r.stopped ==> '\n' !in r.buffer
    decreases |chunks|
  {
    if |chunks| == 0 then
      assert Join([]) + "" == Concat([]);
      Decoded("", [], [], false)
    else
      var d := Decode(chunks[..|chunks| - 1], classify);
      var drained := Drain(d.buffer + chunks[|chunks| - 1], classify);
      DrainFraming(d.buffer + chunks[|chunks| - 1], classify);
      JoinBoth(d.consumed, d.buffer, drained.consumed, drained.buffer,
               Concat(chunks[..|chunks| - 1]), chunks[|chunks| - 1]);
      DeltasOfAppend(d.consumed, drained.consumed, classify);
      Decoded(drained.buffer, d.consumed + drained.consumed, d.deltas + drained.deltas, drained.stopped)
  }

  lemma {:induction false} DeltasOfAppend(a: seq<string>, b: seq<string>, classify: Classifier)
    ensures DeltasOf(a + b, classify) == DeltasOf(a, classify) + DeltasOf(b, classify)
    decreases |a|
  {
    if |a| == 0 {
      assert a + b == b;
    } else {
      assert (a + b)[0] == a[0];
      assert (a + b)[1..] == a[1..] + b;
      DeltasOfAppend(a[1..], b, classify);
    }
  }

  /** The reply text the stream builds: its pieces, concatenated in order. */
  function ReplyText(chunks: seq<string>, parse: string -> Payload): string {
    Concat(Decode(chunks, LineClassifier(parse)).deltas)
  }

  /**
    The read loop as written: each chunk read is added to `textBuffer` and the
    inner loop run over it. It ends with the accumulated reply and with the
    buffer the page drops once the reader reports it is done.
   */
  method ReadStream(chunks: seq<string>, parse: string -> Payload) returns (assistantMessage: string, textBuffer: string)
    ensures assistantMessage == ReplyText(chunks, parse)
    ensures textBuffer == Decode(chunks, LineClassifier(parse)).buffer
  {
    assistantMessage := "";
    textBuffer := "";
    var k := 0;
    while k < |chunks|
      invariant 0 <= k <= |chunks|
      invariant textBuffer == Decode(chunks[..k], LineClassifier(parse)).buffer
      invariant assistantMessage == Concat(Decode(chunks[..k], LineClassifier(parse)).deltas)
    {
      ghost var before := Decode(chunks[..k], LineClassifier(parse)).deltas;
      textBuffer, assistantMessage := ReadLines(textBuffer + chunks[k], assistantMessage, LineClassifier(parse));
      ConcatAppend(before, Drain(Decode(chunks[..k], LineClassifier(parse)).buffer + chunks[k], LineClassifier(parse)).deltas);
      assert chunks[..k + 1][..k] == chunks[..k];
      k := k + 1;
    }
    assert chunks[..k] == chunks;
  }

  /**
    The inner loop as written: while the buffer holds a '\n', cut off the line
    before it and classify it; the sentinel `break`s out of this loop only,
    leaving the rest of the buffer for the next chunk; every piece is added to
    the accumulated reply.
   */
  method ReadLines(buffer: string, accumulated: string, classify: Classifier)
    returns (textBuffer: string, assistantMessage: string)
    ensures textBuffer == Drain(buffer, classify).buffer
    ensures assistantMessage == accumulated + Concat(Drain(buffer, classify).deltas)
  {
    textBuffer := buffer;
    assistantMessage := accumulated;
    ghost var found := [];
    var newlineIndex := IndexOf(textBuffer, '\n');
    while newlineIndex != -1
      invariant newlineIndex == IndexOf(textBuffer, '\n')
      invariant Drain(textBuffer, classify).buffer == Drain(buffer, classify).buffer
      invariant found + Drain(textBuffer, classify).deltas == Drain(buffer, classify).deltas
      invariant assistantMessage == accumulated + Concat(found)
      decreases |textBuffer|
    {
      ReadStep(textBuffer, newlineIndex, classify, found);
      var line := textBuffer[..newlineIndex];
      PiecesOf(line, classify);
      AccumulatePiece(accumulated, found, assistantMessage, Pieces(line, classify));
      textBuffer := textBuffer[newlineIndex + 1..];
      var outcome := classify(line);
      if outcome == Done {
        break;
      }
      if outcome.Delta? {
        assistantMessage := assistantMessage + outcome.text;
      }
      found := found + Pieces(line, classify);
      newlineIndex := IndexOf(textBuffer, '\n');
    }
    if newlineIndex == -1 {
      DrainWithoutNewline(textBuffer, classify);
      assert found + [] == found;
    }
  }

  /** What one turn of `ReadLines` does to the buffer and to the pieces still to be found. */
  lemma ReadStep(buf: string, i: int, classify: Classifier, found: seq<string>)
    requires 0 <= i && i == IndexOf(buf, '\n')
    ensures var line := buf[..i];
            var rest := buf[i + 1..];
            && (classify(line) == Done ==>
                  Drain(buf, classify).buffer == rest && found + Drain(buf, classify).deltas == found)
            && (classify(line) != Done ==>
                  && Drain(buf, classify).buffer == Drain(rest, classify).buffer
                  && found + Drain(buf, classify).deltas == (found + Pieces(line, classify)) + Drain(rest, classify).deltas)
  {
    DrainAdvance(buf, i, classify);
    if classify(buf[..i]) == Done {
      assert found + [] == found;
    } else {
      var piece, rest := Pieces(buf[..i], classify), Drain(buf[i + 1..], classify).deltas;
      assert found + (piece + rest) == (found + piece) + rest;
    }
  }

  /** A line yields its content as its one piece, or no piece. */
  lemma PiecesOf(line: string, classify: Classifier)
    ensures |Pieces(line, classify)| == (if classify(line).Delta? then 1 else 0)
    ensures classify(line).Delta? ==> Pieces(line, classify)[0] == classify(line).text
  {
  }

  /** Adding the piece of one line, if any, to the reply so far. */
  lemma AccumulatePiece(accumulated: string, found: seq<string>, message: string, piece: seq<string>)
    requires |piece| <= 1
    requires message == accumulated + Concat(found)
    ensures (if |piece| == 1 then message + piece[0] else message) == accumulated + Concat(found + piece)
  {
    if |piece| == 1 {
      AppendPiece(found, piece[0]);
      assert found + piece == found + [piece[0]];
    } else {
      assert found + piece == found;
    }
  }

  /** One turn of the inner loop, seen from what is left and what is found. */
  lemma DrainAdvance(buf: string, i: int, classify: Classifier)
    requires 0 <= i && i == IndexOf(buf, '\n')
    ensures classify(buf[..i]) == Done ==>
              Drain(buf, classify).buffer == buf[i + 1..] && Drain(buf, classify).deltas == []
    ensures classify(buf[..i]) != Done ==>
              && Drain(buf, classify).buffer == Drain(buf[i + 1..], classify).buffer
              && Drain(buf, classify).deltas == Pieces(buf[..i], classify) + Drain(buf[i + 1..], classify).deltas
  {
  }

  /** A buffer with no '\n' is left as it is and yields nothing. */
  lemma DrainWithoutNewline(buf: string, classify: Classifier)
    requires IndexOf(buf, '\n') == -1
    ensures Drain(buf, classify) == Drained(buf, [], [], false)
  {
  }

  lemma AppendPiece(parts: seq<string>, piece: string)
    ensures Concat(parts + [piece]) == Concat(parts) + piece
  {
    assert (parts + [piece])[..|parts|] == parts;
  }
}

=== FILE: decoder_properties.dfy ===
/**
  Properties of the stream decoder: how lines are classified, that the
  pieces of reply do not depend on where the chunks were cut, that an
  unterminated tail is never read, and what the sentinel does and does not do.
 */
module DecoderProperties {
  import opened Options
  import opened Text
  import opened Framing
  import opened StreamDecoder

  /** Comments, blank lines and lines without the exact "data: " prefix yield nothing. */
  lemma SkipRules(line: string, parse: string -> Payload)
    requires || StartsWith(StripCR(line), ":")
             || AllSpace(StripCR(line))
             || !StartsWith(StripCR(line), DataPrefix)
    ensures ClassifyLine(line, parse) == Skip
  {
    if IsDataLine(line) {
      DataLineIsNeitherCommentNorBlank(StripCR(line));
    }
  }

  /**
    A line yields the piece `c` exactly when it is a data line whose payload is
    not the sentinel and parses to a content field holding the non-empty `c`.
   */
  lemma DeltaExactly(line: string, parse: string -> Payload, c: string)
    ensures ClassifyLine(line, parse) == Delta(c) <==>
              && IsDataLine(line)
              && PayloadOf(line) != DoneSentinel
              && parse(PayloadOf(line)) == Parsed(Some(c))
              && c != ""
  {
    if IsDataLine(line) {
      DataLineIsNeitherCommentNorBlank(StripCR(line));
    }
  }

  /** A payload that fails to parse, or has no content or an empty one, is dropped without ending anything. */
  lemma UnusablePayloadIgnored(line: string, parse: string -> Payload)
    requires IsDataLine(line) && PayloadOf(line) != DoneSentinel
    requires parse(PayloadOf(line)) in {Malformed, Parsed(None), Parsed(Some(""))}
    ensures ClassifyLine(line, parse) == Skip
  {
    DeltaExactly(line, parse, "");
    if ClassifyLine(line, parse).Delta? {
      DeltaExactly(line, parse, ClassifyLine(line, parse).text);
    }
  }

  /** `NoDone` splits over concatenation. */
  lemma NoDoneAppend(a: seq<string>, b: seq<string>, classify: Classifier)
    requires NoDone(a + b, classify)
    ensures NoDone(a, classify) && NoDone(b, classify)
  {
    forall k | 0 <= k < |b| ensures classify(b[k]) != Done {
      assert (a + b)[|a| + k] == b[k];
    }
    forall k | 0 <= k < |a| ensures classify(a[k]) != Done {
      assert (a + b)[k] == a[k];
    }
  }

  /**
    Line framing: when no complete line of the text received is the sentinel,
    the read loop takes off exactly the complete lines of that text, in order,
    each once, and keeps exactly the unterminated tail.
   */
  lemma {:induction false} DecodeWithoutDone(chunks: seq<string>, classify: Classifier)
    requires NoDone(SplitLines(Concat(chunks)).lines, classify)
    ensures Decode(chunks, classify).consumed == SplitLines(Concat(chunks)).lines
    ensures Decode(chunks, classify).buffer == SplitLines(Concat(chunks)).tail
    ensures !Decode(chunks, classify).stopped
    decreases |chunks|
  {
    if |chunks| == 0 {
      assert SplitLines("") == Split([], "");
    } else {
      var prefix := chunks[..|chunks| - 1];
      var last := chunks[|chunks| - 1];
      var text := Concat(prefix);
      assert Concat(chunks) == text + last;
      SplitAppend(text, last);
      var tail := SplitLines(text).tail;
      NoDoneAppend(SplitLines(text).lines, SplitLines(tail + last).lines, classify);
      DecodeWithoutDone(prefix, classify);
      DrainWithoutDone(tail + last, classify);
    }
  }

  /**
    Chunk-boundary independence: when no complete line is the sentinel, two
    ways of cutting the same text into chunks give the same pieces of reply
    and leave the same buffer.
   */
  lemma ChunkBoundaryIndependence(a: seq<string>, b: seq<string>, classify: Classifier)
    requires Concat(a) == Concat(b)
    requires NoDone(SplitLines(Concat(a)).lines, classify)
    ensures Decode(a, classify).deltas == Decode(b, classify).deltas
    ensures Decode(a, classify).buffer == Decode(b, classify).buffer
  {
    DecodeWithoutDone(a, classify);
    DecodeWithoutDone(b, classify);
  }

  /** In particular, the reply is the one the whole text would give read as a single chunk. */
  lemma SameAsOneChunk(chunks: seq<string>, parse: string -> Payload)
    requires NoDone(SplitLines(Concat(chunks)).lines, LineClassifier(parse))
    ensures ReplyText(chunks, parse) == ReplyText([Concat(chunks)], parse)
  {
    ConcatSingle(Concat(chunks));
    ChunkBoundaryIndependence(chunks, [Concat(chunks)], LineClassifier(parse));
  }

  /**
    Text left in the buffer without a terminating '\n' when the reader reports
    it is done never yields a piece: a last chunk without '\n' yields exactly
    what an empty chunk would, that is, only the complete lines already
    waiting in the buffer, which a sentinel in an earlier chunk may have left.
   */
  lemma UnterminatedTailYieldsNothing(chunks: seq<string>, tail: string, classify: Classifier)
    requires '\n' !in tail
    ensures Decode(chunks + [tail], classify).deltas == Decode(chunks + [""], classify).deltas
  {
    var d := Decode(chunks, classify);
    assert (chunks + [tail])[..|chunks|] == chunks;
    assert (chunks + [""])[..|chunks|] == chunks;
    DrainUnterminated(d.buffer, tail, classify);
    assert d.buffer + "" == d.buffer;
  }

  /** In particular, when no complete line is the sentinel, a last chunk without '\n' adds no piece at all. */
  lemma UnterminatedTailAddsNoPiece(chunks: seq<string>, tail: string, classify: Classifier)
    requires '\n' !in tail
    requires NoDone(SplitLines(Concat(chunks)).lines, classify)
    ensures Decode(chunks + [tail], classify).deltas == Decode(chunks, classify).deltas
  {
    var all := chunks + [tail];
    assert all[..|all| - 1] == chunks;
    assert Concat(all) == Concat(chunks) + tail;
    UnterminatedTextAddsNoLine(Concat(chunks), tail);
    DecodeWithoutDone(chunks, classify);
    DecodeWithoutDone(all, classify);
  }

  /** The inner loop ignores text without '\n' at the end of the buffer: it only stays behind in the buffer. */
  lemma {:induction false} DrainUnterminated(buf: string, tail: string, classify: Classifier)
    requires '\n' !in tail
    ensures Drain(buf + tail, classify) == Drain(buf, classify).(buffer := Drain(buf, classify).buffer + tail)
    decreases |buf|
  {
    var i := IndexOf(buf, '\n');
    if i < 0 {
      assert '\n' !in buf + tail;
    } else {
      var s := buf + tail;
      assert s[..i] == buf[..i] && s[i] == '\n';
      assert IndexOf(s, '\n') == i;
      assert s[i + 1..] == buf[i + 1..] + tail;
      DrainStep(s, classify);
      DrainStep(buf, classify);
      if classify(buf[..i]) != Done {
        DrainUnterminated(buf[i + 1..], tail, classify);
      }
    }
  }

  /** The first line the loop stops at, among the complete lines of a buffer. */
  lemma DrainStopsAtFirstSentinel(buf: string, classify: Classifier)
    requires Drain(buf, classify).stopped
    ensures var lines := SplitLines(buf).lines;
            var n := |Drain(buf, classify).consumed|;
            && 0 < n <= |lines|
            && Drain(buf, classify).consumed == lines[..n]
            && classify(lines[n - 1]) == Done
            && NoDone(lines[..n - 1], classify)
            && Drain(buf, classify).buffer == Join(lines[n..]) + SplitLines(buf).tail
  {
    StoppedRunTakesLeadingLines(buf, classify);
    NoSentinelBeforeTheLast(buf, classify);
    var lines := SplitLines(buf).lines;
    var n := |Drain(buf, classify).consumed|;
    assert lines[..n][..n - 1] == lines[..n - 1];
  }

  /** A stopped run took a prefix of the buffer's complete lines, the last of them a sentinel, and left the rest. */
  lemma {:induction false} StoppedRunTakesLeadingLines(buf: string, classify: Classifier)
    requires Drain(buf, classify).stopped
    ensures var lines := SplitLines(buf).lines;
            var n := |Drain(buf, classify).consumed|;
            && 0 < n <= |lines|
            && Drain(buf, classify).consumed == lines[..n]
            && classify(lines[n - 1]) == Done
            && Drain(buf, classify).buffer == Join(lines[n..]) + SplitLines(buf).tail
    decreases |buf|
  {
    var i := IndexOf(buf, '\n');
    var line := buf[..i];
    var rest := buf[i + 1..];
    var restLines := SplitLines(rest).lines;
    assert SplitLines(buf).lines == [line] + restLines;
    DrainStep(buf, classify);
    if classify(line) == Done {
      ConsSlices(line, restLines, 0);
    } else {
      StoppedRunTakesLeadingLines(rest, classify);
      ConsSlices(line, restLines, |Drain(rest, classify).consumed|);
    }
  }

  /** The lines a stopped run took, but its last, hold no sentinel. */
  lemma NoSentinelBeforeTheLast(buf: string, classify: Classifier)
    requires Drain(buf, classify).stopped
    ensures var c := Drain(buf, classify).consumed;
            |c| > 0 && NoDone(c[..|c| - 1], classify)
  {
    DrainFraming(buf, classify);
  }

  lemma ConsSlices(x: string, xs: seq<string>, m: nat)
    requires m <= |xs|
    ensures ([x] + xs)[..m + 1] == [x] + xs[..m]
    ensures ([x] + xs)[m + 1..] == xs[m..]
    ensures ([x] + xs)[m] == if m == 0 then x else xs[m - 1]
  {
  }

  const DoneLine := "data: [DONE]"
  const HelloPayload := "{\"choices\":[{\"delta\":{\"content\":\"Hi\"}}]}"

  /** One trailing carriage return, as in CRLF line endings, does not change how a line is read. */
  lemma CarriageReturnIgnored(line: string, parse: string -> Payload)
    requires !EndsWith(line, "\r")
    ensures ClassifyLine(line + "\r", parse) == ClassifyLine(line, parse)
  {
    assert EndsWith(line + "\r", "\r");
    assert StripCR(line + "\r") == line;
  }

  /** "data: " followed by a payload with no surrounding white space is a data line carrying exactly that payload. */
  lemma DataLineCarries(payload: string)
    requires payload != "" && !IsSpace(payload[0]) && !IsSpace(payload[|payload| - 1])
    ensures IsDataLine(DataPrefix + payload)
    ensures PayloadOf(DataPrefix + payload) == payload
  {
    var l := DataPrefix + payload;
    assert StripCR(l) == l by {
      assert l[|l| - 1] == payload[|payload| - 1];
      NotEndsWithOther(l, '\r');
    }
    TrimKeepsVisibleEnds(payload);
    PrefixAndRest(DataPrefix, payload);
  }

  lemma PrefixAndRest(p: string, q: string)
    ensures StartsWith(p + q, p) && (p + q)[|p|..] == q
  {
    assert (p + q)[..|p|] == p;
  }

  /** `data: {"choices":[{"delta":{"content":"Hi"}}]}` yields "Hi". */
  lemma HelloLineYieldsHi(parse: string -> Payload)
    requires parse(HelloPayload) == Parsed(Some("Hi"))
    ensures ClassifyLine(DataPrefix + HelloPayload, parse) == Delta("Hi")
  {
    DataLineCarries(HelloPayload);
    DeltaExactly(DataPrefix + HelloPayload, parse, "Hi");
  }

  /** `data: [DONE]` is the sentinel. */
  lemma SentinelLine(parse: string -> Payload)
    ensures ClassifyLine(DoneLine, parse) == Done
  {
    assert DoneLine == DataPrefix + DoneSentinel;
    DataLineCarries(DoneSentinel);
  }

  /** A keep-alive comment is skipped. */
  lemma KeepAliveSkipped(parse: string -> Payload)
    ensures ClassifyLine(": keep-alive", parse) == Skip
  {
    assert !EndsWith(": keep-alive", "\r") by {
      assert ": keep-alive"[11..] == "e";
    }
    assert StartsWith(": keep-alive", ":");
    SkipRules(": keep-alive", parse);
  }

  /** Without the space after the colon the line is not a data line, even for the sentinel. */
  lemma MissingSpaceSkipped(parse: string -> Payload)
    ensures ClassifyLine("data:[DONE]", parse) == Skip
  {
    assert !EndsWith("data:[DONE]", "\r") by {
      assert "data:[DONE]"[10..] == "]";
    }
    assert !StartsWith("data:[DONE]", DataPrefix) by {
      assert "data:[DONE]"[5] != DataPrefix[5];
    }
    SkipRules("data:[DONE]", parse);
  }

  /** A buffer that starts with a complete `line`: the inner loop takes that line first. */
  lemma DrainFirstLine(line: string, rest: string, classify: Classifier)
    requires '\n' !in line
    ensures Drain(line + "\n" + rest, classify) ==
              if classify(line) == Done then Drained(rest, [line], [], true)
              else
                var d := Drain(rest, classify);
                Drained(d.buffer, [line] + d.consumed, Pieces(line, classify) + d.deltas, d.stopped)
  {
    FirstNewline(line, rest);
    DrainStep(line + "\n" + rest, classify);
  }

  /** The outer loop over two chunks: the second is added to what the first left in the buffer. */
  lemma DecodeTwo(c1: string, c2: string, classify: Classifier)
    ensures Decode([c1], classify).buffer == Drain(c1, classify).buffer
    ensures Decode([c1], classify).deltas == Drain(c1, classify).deltas
    ensures Decode([c1, c2], classify).deltas ==
              Drain(c1, classify).deltas + Drain(Drain(c1, classify).buffer + c2, classify).deltas
  {
    DecodeOne(c1, classify);
    assert [c1, c2][..1] == [c1];
  }

  /** The outer loop over one chunk is one run of the inner loop on it. */
  lemma DecodeOne(c: string, classify: Classifier)
    ensures Decode([c], classify).buffer == Drain(c, classify).buffer
    ensures Decode([c], classify).deltas == Drain(c, classify).deltas
  {
    assert [c][..0] == [];
    assert "" + c == c;
  }

  /**
    The sentinel ends only the handling of the chunk it arrived in, not the
    stream: a line after it stays in the buffer, and is read, yielding its
    piece, once the next chunk arrives, here a second sentinel.
   */
  lemma SentinelLeavesLineForNextChunk(done: string, line: string, text: string, classify: Classifier)
    requires '\n' !in done && '\n' !in line
    requires classify(done) == Done && classify(line) == Delta(text)
    ensures var first := done + "\n" + line + "\n";
            && Decode([first], classify).deltas == []
            && Decode([first], classify).buffer == line + "\n"
            && Decode([first, done + "\n"], classify).deltas == [text]
  {
    var first := done + "\n" + line + "\n";
    DecodeTwo(first, done + "\n", classify);
    StopsAfterSentinel(done, line, classify);
    ReadsLineThenSentinel(line, done, text, classify);
  }

  /** The first chunk: its sentinel is taken off and the line after it stays in the buffer. */
  lemma StopsAfterSentinel(done: string, line: string, classify: Classifier)
    requires '\n' !in done && classify(done) == Done
    ensures Drain(done + "\n" + line + "\n", classify) == Drained(line + "\n", [done], [], true)
  {
    assert done + "\n" + line + "\n" == done + "\n" + (line + "\n");
    DrainFirstLine(done, line + "\n", classify);
  }

  /** The buffer once the second chunk is added: the line yields its piece, then the sentinel stops the loop. */
  lemma ReadsLineThenSentinel(line: string, done: string, text: string, classify: Classifier)
    requires '\n' !in done && '\n' !in line
    requires classify(done) == Done && classify(line) == Delta(text)
    ensures Drain(line + "\n" + (done + "\n"), classify).deltas == [text]
  {
    DrainFirstLine(line, done + "\n", classify);
    assert done + "\n" == done + "\n" + "";
    DrainFirstLine(done, "", classify);
  }

  const HelloLine := DataPrefix + HelloPayload

  lemma HelloLineHasNoNewline()
    ensures '\n' !in HelloLine && '\n' !in DoneLine
  {
    assert forall k :: 0 <= k < |HelloLine| ==> HelloLine[k] != '\n';
  }

  /**
    Concretely: after `data: [DONE]` and a content line in one chunk the reply
    is still empty, and a further chunk makes the content line count.
   */
  lemma SentinelEndsOnlyTheChunk(parse: string -> Payload)
    requires parse(HelloPayload) == Parsed(Some("Hi"))
    ensures var first := DoneLine + "\n" + HelloLine + "\n";
            && ReplyText([first], parse) == ""
            && Decode([first], LineClassifier(parse)).buffer == HelloLine + "\n"
            && ReplyText([first, DoneLine + "\n"], parse) == "Hi"
  {
    SentinelLine(parse);
    HelloLineYieldsHi(parse);
    HelloLineHasNoNewline();
    SentinelLeavesLineForNextChunk(DoneLine, HelloLine, "Hi", LineClassifier(parse));
    ConcatSingle("Hi");
  }

  /** A stream of one chunk holding one complete content line gives that line's piece. */
  lemma SingleLineStream(line: string, text: string, classify: Classifier)
    requires '\n' !in line && classify(line) == Delta(text)
    ensures Decode([line + "\n"], classify).deltas == [text]
  {
    DecodeOne(line + "\n", classify);
    SingleLineDrain(line, text, classify);
  }

  lemma SingleLineDrain(line: string, text: string, classify: Classifier)
    requires '\n' !in line && classify(line) == Delta(text)
    ensures Drain(line + "\n", classify).deltas == [text]
  {
    assert line + "\n" == line + "\n" + "";
    DrainFirstLine(line, "", classify);
    DrainNothing(classify);
  }

  lemma DrainNothing(classify: Classifier)
    ensures Drain("", classify) == Drained("", [], [], false)
  {
  }

  /** A stream of the single content line for "Hi" gives the reply "Hi". */
  lemma OneLineReply(parse: string -> Payload)
    requires parse(HelloPayload) == Parsed(Some("Hi"))
    ensures ReplyText([HelloLine + "\n"], parse) == "Hi"
  {
    HelloLineYieldsHi(parse);
    HelloLineHasNoNewline();
    SingleLineStream(HelloLine, "Hi", LineClassifier(parse));
    ConcatSingle("Hi");
  }
}

=== FILE: framing.dfy ===
/**
  Line framing of the streamed response text: a text is a sequence of complete
  lines, each terminated by '\n', followed by an unterminated tail.
 */
module Framing {
  import opened Text

  /** Concatenation of text fragments, in order. */
  function Concat(parts: seq<string>): string
    decreases |parts|
  {
    if |parts| == 0 then "" else Concat(parts[..|parts| - 1]) + parts[|parts| - 1]
  }

  /** Each line followed by its '\n' terminator. */
  function Join(lines: seq<string>): string
    decreases |lines|
  {
    if |lines| == 0 then "" else lines[0] + "\n" + Join(lines[1..])
  }

  /** None of the lines holds a '\n'. */
  predicate AllLines(lines: seq<string>) {
    forall k :: 0 <= k < |lines| ==> '\n' !in lines[k]
  }

  datatype Split = Split(lines: seq<string>, tail: string)

  /**
    Cuts `s` at every '\n' the way the read loop does, by repeatedly taking the
    text before the first '\n': the complete lines, and the tail after the last
    '\n'. Joining the lines back and adding the tail gives `s` again.
   */
  function SplitLines(s: string): (r: Split)
    ensures AllLines(r.lines) && '\n' !in r.tail
    ensures Join(r.lines) + r.tail == s
    decreases |s|
  {
    var i := IndexOf(s, '\n');
    if i < 0 then Split([], s)
    else
      var rest := SplitLines(s[i + 1..]);
      CutAtNewline(s, i, rest);
      Split([s[..i]] + rest.lines, rest.tail)
  }

  /** Cutting `s` at a '\n' at `i`: the text before it becomes one more line in front of the framing of the text after it. */
  lemma CutAtNewline(s: string, i: int, rest: Split)
    requires 0 <= i < |s| && s[i] == '\n' && '\n' !in s[..i]
    requires AllLines(rest.lines) && Join(rest.lines) + rest.tail == s[i + 1..]
    ensures AllLines([s[..i]] + rest.lines)
    ensures Join([s[..i]] + rest.lines) + rest.tail == s
  {
    var lines := [s[..i]] + rest.lines;
    assert lines[1..] == rest.lines;
    forall k | 0 < k < |lines| ensures '\n' !in lines[k] {
      assert lines[k] == rest.lines[k - 1];
    }
    JoinCons(s, i, rest.lines, rest.tail);
  }

  /** The text before a '\n' at `i`, then that '\n', then a framing of the text after it, is `s`. */
  lemma JoinCons(s: string, i: int, lines: seq<string>, tail: string)
    requires 0 <= i < |s| && s[i] == '\n'
    requires Join(lines) + tail == s[i + 1..]
    ensures Join([s[..i]] + lines) + tail == s
  {
    assert ([s[..i]] + lines)[1..] == lines;
    calc {
      Join([s[..i]] + lines) + tail;
      s[..i] + "\n" + Join(lines) + tail;
      s[..i] + "\n" + (Join(lines) + tail);
      s[..i] + [s[i]] + s[i + 1..];
      s;
    }
  }

  lemma {:induction false} ConcatAppend(a: seq<string>, b: seq<string>)
    ensures Concat(a + b) == Concat(a) + Concat(b)
    decreases |b|
  {
    if |b| == 0 {
      assert a + b == a;
    } else {
      var b' := b[..|b| - 1];
      var last := b[|b| - 1];
      assert (a + b)[..|a + b| - 1] == a + b';
      assert (a + b)[|a + b| - 1] == last;
      ConcatAppend(a, b');
      calc {
        Concat(a + b);
        Concat(a + b') + last;
        Concat(a) + Concat(b') + last;
        Concat(a) + (Concat(b') + last);
      }
    }
  }

  /** One fragment concatenates to itself. */
  lemma ConcatSingle(x: string)
    ensures Concat([x]) == x
  {
    assert [x][..0] == [];
  }

  lemma {:induction false} JoinAppend(a: seq<string>, b: seq<string>)
    ensures Join(a + b) == Join(a) + Join(b)
    decreases |a|
  {
    if |a| == 0 {
      assert a + b == b;
    } else {
      assert (a + b)[1..] == a[1..] + b;
      JoinAppend(a[1..], b);
    }
  }

  /**
    The framing is unique: any way of writing `s` as '\n'-free lines, each
    followed by '\n', and a '\n'-free tail is the one `SplitLines` finds.
   */
  lemma {:induction false} SplitUnique(lines: seq<string>, tail: string)
    requires AllLines(lines) && '\n' !in tail
    ensures SplitLines(Join(lines) + tail) == Split(lines, tail)
    decreases |lines|
  {
    if |lines| == 0 {
      assert Join(lines) + tail == tail;
    } else {
      AllLinesAfterFirst(lines);
      SplitUnique(lines[1..], tail);
      SplitFirstLine(lines, tail);
    }
  }

  /** The framing of joined lines is the first line in front of the framing of the others. */
  lemma SplitFirstLine(lines: seq<string>, tail: string)
    requires |lines| > 0 && '\n' !in lines[0]
    requires SplitLines(Join(lines[1..]) + tail) == Split(lines[1..], tail)
    ensures SplitLines(Join(lines) + tail) == Split(lines, tail)
  {
    JoinFront(lines, tail);
    SplitCons(lines[0], Join(lines[1..]) + tail);
    assert [lines[0]] + lines[1..] == lines;
  }

  /** Joined lines and a tail start with the first line and its '\n'. */
  lemma JoinFront(lines: seq<string>, tail: string)
    requires |lines| > 0
    ensures Join(lines) + tail == lines[0] + "\n" + (Join(lines[1..]) + tail)
  {
  }

  lemma AllLinesAfterFirst(lines: seq<string>)
    requires |lines| > 0 && AllLines(lines)
    ensures AllLines(lines[1..])
  {
    forall k | 0 <= k < |lines[1..]| ensures '\n' !in lines[1..][k] {
      assert lines[1..][k] == lines[k + 1];
    }
  }

  /** Splitting a line, its '\n' and more text: the line, then the split of the rest. */
  lemma SplitCons(line: string, rest: string)
    requires '\n' !in line
    ensures SplitLines(line + "\n" + rest) == Split([line] + SplitLines(rest).lines, SplitLines(rest).tail)
  {
    FirstNewline(line, rest);
  }

  /** In a line, its '\n' and more text, the first '\n' is the line's terminator. */
  lemma FirstNewline(line: string, rest: string)
    requires '\n' !in line
    ensures var s := line + "\n" + rest;
            && IndexOf(s, '\n') == |line|
            && s[..|line|] == line
            && s[|line| + 1..] == rest
  {
    var s := line + "\n" + rest;
    assert s[..|line|] == line;
    assert s[|line|] == '\n';
    assert s[|line| + 1..] == rest;
  }

  /**
    Feeding more text: the lines of `s + c` are the lines of `s` followed by the
    lines found once `c` is added to the tail of `s`, and the tails agree.
   */
  lemma SplitAppend(s: string, c: string)
    ensures var first := SplitLines(s);
            var second := SplitLines(first.tail + c);
            SplitLines(s + c) == Split(first.lines + second.lines, second.tail)
  {
    var first := SplitLines(s);
    var second := SplitLines(first.tail + c);
    JoinBoth(first.lines, first.tail, second.lines, second.tail, s, c);
    AllLinesAppend(first.lines, second.lines);
    SplitUnique(first.lines + second.lines, second.tail);
  }

  lemma JoinBoth(a: seq<string>, ta: string, b: seq<string>, tb: string, s: string, c: string)
    requires Join(a) + ta == s && Join(b) + tb == ta + c
    ensures Join(a + b) + tb == s + c
  {
    JoinAppend(a, b);
    calc {
      Join(a + b) + tb;
      Join(a) + (Join(b) + tb);
      Join(a) + (ta + c);
      (Join(a) + ta) + c;
    }
  }

  lemma AllLinesAppend(a: seq<string>, b: seq<string>)
    requires AllLines(a) && AllLines(b)
    ensures AllLines(a + b)
  {
    forall k | 0 <= k < |a + b| ensures '\n' !in (a + b)[k] {
      if k >= |a| {
        assert (a + b)[k] == b[k - |a|];
      }
    }
  }

  /** Text without a '\n' only lengthens the tail: it completes no line. */
  lemma UnterminatedTextAddsNoLine(s: string, c: string)
    requires '\n' !in c
    ensures SplitLines(s + c).lines == SplitLines(s).lines
    ensures SplitLines(s + c).tail == SplitLines(s).tail + c
  {
    var t := SplitLines(s).tail;
    SplitAppend(s, c);
    assert '\n' !in t + c;
    SplitUnique([], t + c);
    assert Join([]) + (t + c) == t + c;
    assert SplitLines(s).lines + [] == SplitLines(s).lines;
  }
}

=== FILE: speech_output.dfy ===
/**
  The text-to-speech hook: reading a reply aloud through the browser's speech
  synthesis, and the one piece of state the page reads back, whether it is
  speaking.

  The synthesis engine is outside the model. What the hook hands it is kept
  as the queue of utterances given to it since it was last cancelled; when it
  starts, ends or fails an utterance, an event arrives.
 */
module SpeechOutput {

  /** An utterance as the hook configures it: the text, at normal rate, pitch and volume. */
  datatype Utterance = Utterance(text: string, rate: real, pitch: real, volume: real)

  datatype SpeechState = SpeechState(synthesisPresent: bool, isSpeaking: bool, queue: seq<Utterance>)

  /** The utterance events the hook listens to. */
  datatype SynthesisEvent = OnStart | OnEnd | OnError

  function NewUtterance(text: string): (u: Utterance)
    ensures u.text == text && u.rate == 1.0 && u.pitch == 1.0 && u.volume == 1.0
  {
    Utterance(text, 1.0, 1.0, 1.0)
  }

  /**
    `speak`: with speech synthesis, cancel whatever is queued or playing and
    queue one new utterance of `text`; `isSpeaking` waits for its start event.
    Without speech synthesis, nothing.
   */
  function Speak(s: SpeechState, text: string): (r: SpeechState)
    ensures s.synthesisPresent ==> r.queue == [NewUtterance(text)]
    ensures !s.synthesisPresent ==> r == s
    ensures r.isSpeaking == s.isSpeaking && r.synthesisPresent == s.synthesisPresent
  {
    if s.synthesisPresent then s.(queue := [NewUtterance(text)]) else s
  }

  /** `stop`: with speech synthesis, cancel everything and mark not speaking; without it, nothing. */
  function Stop(s: SpeechState): (r: SpeechState)
    ensures s.synthesisPresent ==> r.queue == [] && !r.isSpeaking
    ensures !s.synthesisPresent ==> r == s
    ensures r.synthesisPresent == s.synthesisPresent
  {
    if s.synthesisPresent then s.(queue := [], isSpeaking := false) else s
  }

  /** The utterance handlers: speaking from its start until its end or failure. */
  function OnEvent(s: SpeechState, ev: SynthesisEvent): (r: SpeechState)
    ensures r.isSpeaking <==> ev == OnStart
    ensures r.queue == s.queue && r.synthesisPresent == s.synthesisPresent
  {
    s.(isSpeaking := ev == OnStart)
  }

  /** Stopping twice is stopping once. */
  lemma StopIdempotent(s: SpeechState)
    ensures Stop(Stop(s)) == Stop(s)
  {
  }

  /** Speaking again replaces what was to be spoken: the earlier text is never queued behind the new one. */
  lemma SpeakReplaces(s: SpeechState, first: string, second: string)
    ensures Speak(Speak(s, first), second) == Speak(s, second)
  {
  }

  /** Everything the page can do to the hook, and everything the engine can report. */
  datatype SpeechAction = SpeakText(text: string) | StopSpeaking | Event(ev: SynthesisEvent)

  function Apply(s: SpeechState, a: SpeechAction): SpeechState {
    match a
    case SpeakText(t) => Speak(s, t)
    case StopSpeaking => Stop(s)
    case Event(ev) => OnEvent(s, ev)
  }

  function Run(s: SpeechState, actions: seq<SpeechAction>): SpeechState
    decreases |actions|
  {
    if |actions| == 0 then s else Run(Apply(s, actions[0]), actions[1..])
  }

  /**
    Reference for the queue after a run: the text of the last `speak` if no
    `stop` came after it; nothing after a `stop`. Without speech synthesis,
    the queue is never touched.
   */
  function QueueAfter(present: bool, queue: seq<Utterance>, actions: seq<SpeechAction>): seq<Utterance>
    decreases |actions|
  {
    if |actions| == 0 || !present then queue
    else
      var before := actions[..|actions| - 1];
      match actions[|actions| - 1]
      case SpeakText(t) => [NewUtterance(t)]
      case StopSpeaking => []
      case Event(_) => QueueAfter(present, queue, before)
  }

  /**
    Reference for `isSpeaking` after a run: the last start, end or failure
    event decides, or a later `stop` (with speech synthesis) clears it;
    `speak` alone never changes it.
   */
  function SpeakingAfter(present: bool, speaking: bool, actions: seq<SpeechAction>): bool
    decreases |actions|
  {
    if |actions| == 0 then speaking
    else
      var before := actions[..|actions| - 1];
      match actions[|actions| - 1]
      case SpeakText(_) => SpeakingAfter(present, speaking, before)
      case StopSpeaking => if present then false else SpeakingAfter(present, speaking, before)
      case Event(ev) => ev == OnStart
  }

  /** A run ends with the queue and the speaking flag the references give. */
  lemma {:induction false} RunMatchesReference(s: SpeechState, actions: seq<SpeechAction>)
    ensures Run(s, actions).synthesisPresent == s.synthesisPresent
    ensures Run(s, actions).queue == QueueAfter(s.synthesisPresent, s.queue, actions)
    ensures Run(s, actions).isSpeaking == SpeakingAfter(s.synthesisPresent, s.isSpeaking, actions)
    decreases |actions|
  {
    if |actions| > 0 {
      var before := actions[..|actions| - 1];
      var a := actions[|actions| - 1];
      assert actions == before + [a];
      RunMatchesReference(s, before);
      RunSnoc(s, before, a);
    }
  }

  lemma {:induction false} RunSnoc(s: SpeechState, actions: seq<SpeechAction>, a: SpeechAction)
    ensures Run(s, actions + [a]) == Apply(Run(s, actions), a)
    decreases |actions|
  {
    if |actions| == 0 {
      assert [a][1..] == [];
    } else {
      assert (actions + [a])[1..] == actions[1..] + [a];
      RunSnoc(Apply(s, actions[0]), actions[1..], a);
    }
  }

  /** At most one utterance is ever pending: from a queue of at most one, every run leaves at most one. */
  lemma AtMostOnePending(s: SpeechState, actions: seq<SpeechAction>)
    requires |s.queue| <= 1
    ensures |Run(s, actions).queue| <= 1
  {
    RunMatchesReference(s, actions);
    QueueAfterAtMostOne(s.synthesisPresent, s.queue, actions);
  }

  lemma {:induction false} QueueAfterAtMostOne(present: bool, queue: seq<Utterance>, actions: seq<SpeechAction>)
    requires |queue| <= 1
    ensures |QueueAfter(present, queue, actions)| <= 1
    decreases |actions|
  {
    if |actions| > 0 && present {
      QueueAfterAtMostOne(present, queue, actions[..|actions| - 1]);
    }
  }
}

=== FILE: text.dfy ===
/** Small optional-value type used across the model. */
module Options {
  datatype Option<+T> = None | Some(value: T)
}

/**
  The JavaScript string operations the page relies on: `trim`, `startsWith`,
  `endsWith` and `indexOf`, over strings as sequences of code points.
 */
module Text {

  /** The code points `String.prototype.trim` removes: ECMAScript WhiteSpace and LineTerminator. */
  predicate IsSpace(c: char) {
    || c == '\t' || c == '\n' || c == '\U{000B}' || c == '\U{000C}' || c == '\r' || c == ' '
    || c == '\U{00A0}' || c == '\U{1680}' || ('\U{2000}' <= c <= '\U{200A}')
    || c == '\U{2028}' || c == '\U{2029}' || c == '\U{202F}' || c == '\U{205F}'
    || c == '\U{3000}' || c == '\U{FEFF}'
  }

  predicate AllSpace(s: string) {
    forall k :: 0 <= k < |s| ==> IsSpace(s[k])
  }

  predicate StartsWith(s: string, prefix: string) {
    |prefix| <= |s| && s[..|prefix|] == prefix
  }

  predicate EndsWith(s: string, suffix: string) {
    |suffix| <= |s| && s[|s| - |suffix|..] == suffix
  }

  /** Drops leading white space; what is dropped is all white space and what is kept does not start with any. */
  function TrimStart(s: string): (r: string)
    ensures |r| <= |s| && r == s[|s| - |r|..]
    ensures AllSpace(s[..|s| - |r|])
    ensures |r| > 0 ==> !IsSpace(r[0])
    decreases |s|
  {
    if |s| > 0 && IsSpace(s[0]) then TrimStart(s[1..]) else s
  }

  /** Drops trailing white space; what is dropped is all white space and what is kept does not end with any. */
  function TrimEnd(s: string): (r: string)
    ensures |r| <= |s| && r == s[..|r|]
    ensures AllSpace(s[|r|..])
    ensures |r| > 0 ==> !IsSpace(r[|r| - 1])
    decreases |s|
  {
    if |s| > 0 && IsSpace(s[|s| - 1]) then TrimEnd(s[..|s| - 1]) else s
  }

  /**
    `s.trim()`: the longest infix of `s` that neither starts nor ends with white
    space. It is empty exactly when `s` is white space only.
   */
  function Trim(s: string): (r: string)
    ensures r == "" <==> AllSpace(s)
    ensures |r| > 0 ==> !IsSpace(r[0]) && !IsSpace(r[|r| - 1])
    ensures |r| <= |s|
  {
    var left := TrimStart(s);
    var r := TrimEnd(left);
    assert r == "" ==> AllSpace(s) by {
      if r == "" {
        // a non-empty `left` starts with a visible character, which `TrimEnd` keeps
        assert left == "";
        assert s[..|s|] == s;
      }
    }
    r
  }

  /** `r` sits in `s` at `i` with only white space before and after it. */
  predicate Padded(s: string, i: int, r: string) {
    && 0 <= i && i + |r| <= |s|
    && r == s[i..i + |r|]
    && AllSpace(s[..i])
    && AllSpace(s[i + |r|..])
  }

  /**
    What `trim` keeps is the infix of `s` between its leading and its trailing
    white space: everything before it and everything after it is white space.
   */
  lemma TrimIsInfix(s: string)
    ensures Padded(s, |s| - |TrimStart(s)|, Trim(s))
  {
    var l := TrimStart(s);
    var r := TrimEnd(l);
    assert Trim(s) == r;
    InfixOfSuffix(s, l, r);
  }

  /** A prefix `r` of a suffix `left` of `s` is the infix of `s` where they meet; what follows `r` in `left` follows it in `s`. */
  lemma InfixOfSuffix(s: string, left: string, r: string)
    requires |left| <= |s| && left == s[|s| - |left|..] && AllSpace(s[..|s| - |left|])
    requires |r| <= |left| && r == left[..|r|] && AllSpace(left[|r|..])
    ensures Padded(s, |s| - |left|, r)
  {
    var i := |s| - |left|;
    assert left[..|r|] == s[i..i + |r|];
    assert left[|r|..] == s[i + |r|..];
  }

  /**
    `trim` is characterised by its result alone: a string made of white space,
    then a part that is empty or neither starts nor ends with white space, then
    white space, trims to that part.
   */
  lemma TrimUnique(a: string, m: string, b: string)
    requires AllSpace(a) && AllSpace(b)
    requires m != "" ==> !IsSpace(m[0]) && !IsSpace(m[|m| - 1])
    ensures Trim(a + m + b) == m
  {
    if m == "" {
      assert a + m + b == a + b;
      assert AllSpace(a + b) by {
        forall k | 0 <= k < |a + b| ensures IsSpace((a + b)[k]) {
          if k >= |a| { assert (a + b)[k] == b[k - |a|]; }
        }
      }
    } else {
      assert a + m + b == a + (m + b);
      TrimStartSkips(a, m + b);
      TrimEndSkips(m, b);
    }
  }

  /** Leading white space in front of a visible character is exactly what `TrimStart` drops. */
  lemma {:induction false} TrimStartSkips(a: string, rest: string)
    requires AllSpace(a) && rest != "" && !IsSpace(rest[0])
    ensures TrimStart(a + rest) == rest
    decreases |a|
  {
    if |a| > 0 {
      assert (a + rest)[1..] == a[1..] + rest;
      TrimStartSkips(a[1..], rest);
    } else {
      assert a + rest == rest;
    }
  }

  /** Trailing white space after a visible character is exactly what `TrimEnd` drops. */
  lemma {:induction false} TrimEndSkips(m: string, b: string)
    requires AllSpace(b) && m != "" && !IsSpace(m[|m| - 1])
    ensures TrimEnd(m + b) == m
    decreases |b|
  {
    if |b| > 0 {
      assert (m + b)[..|m + b| - 1] == m + b[..|b| - 1];
      TrimEndSkips(m, b[..|b| - 1]);
    } else {
      assert m + b == m;
    }
  }

  /** A string whose last character is not `c` does not end with `c`. */
  lemma NotEndsWithOther(s: string, c: char)
    requires |s| > 0 && s[|s| - 1] != c
    ensures !EndsWith(s, [c])
  {
    assert s[|s| - 1..][0] == s[|s| - 1];
  }

  /** Trimming twice is trimming once. */
  lemma TrimIdempotent(s: string)
    ensures Trim(Trim(s)) == Trim(s)
  {
    var t := Trim(s);
    if |t| > 0 {
      assert TrimStart(t) == t;
      assert TrimEnd(t) == t;
    }
  }

  /** A string that neither starts nor ends with white space trims to itself. */
  lemma TrimKeepsVisibleEnds(s: string)
    requires s != "" && !IsSpace(s[0]) && !IsSpace(s[|s| - 1])
    ensures Trim(s) == s
  {
    assert TrimStart(s) == s;
    assert TrimEnd(s) == s;
  }

  /** A string that starts with a non-space character does not trim to nothing. */
  lemma NotBlankWhenFirstIsVisible(s: string)
    requires |s| > 0 && !IsSpace(s[0])
    ensures Trim(s) != ""
  {
    assert !AllSpace(s);
  }

  /**
    `s.indexOf(c)`: the position of the first `c` in `s`, or -1 when there is none.
   */
  function IndexOf(s: string, c: char): (i: int)
    ensures -1 <= i < |s|
    ensures i == -1 <==> c !in s
    ensures 0 <= i ==> s[i] == c && c !in s[..i]
    decreases |s|
  {
    if |s| == 0 then -1
    else if s[0] == c then 0
    else
      var j := IndexOf(s[1..], c);
      if j == -1 then -1 else j + 1
  }
}

=== FILE: voice_input.dfy ===
/**
  The voice input hook: one speech recognizer, created once when the page
  mounts if the browser offers one, and the two pieces of state the page
  reads from it, whether it is listening and the latest transcript.

  The recognizer engine itself is outside the model: what the hook asks of it
  is recorded as a request, and what it reports back arrives as an event.
 */
module VoiceInput {
  import opened Options

  /** Which constructor the browser offers; the standard one is preferred. */
  datatype Engine = Standard | Webkit

  /** The recognizer as configured on mount: one utterance at a time, interim results, US English. */
  datatype Recognizer = Recognizer(engine: Engine, continuous: bool, interimResults: bool, lang: string)

  /** Which speech recognition constructors the window has. */
  datatype Window = Window(hasSpeechRecognition: bool, hasWebkitSpeechRecognition: bool)

  datatype VoiceState = VoiceState(recognition: Option<Recognizer>, isListening: bool, transcript: string)

  /** What the hook asks of the recognizer. */
  datatype EngineRequest = StartRecognizer | StopRecognizer

  /**
    What the recognizer reports: a result event carries the index of the
    result that changed and, for every result, its alternatives' transcripts.
   */
  datatype RecognitionEvent =
    | Result(resultIndex: int, results: seq<seq<string>>)
    | Error(error: string)
    | End

  /** A state change together with the request it sends to the recognizer, if any. */
  datatype Step = Step(state: VoiceState, request: Option<EngineRequest>)

  /** The mount effect: a recognizer is made when either constructor exists, preferring the standard one. */
  function Mount(w: Window): (s: VoiceState)
    ensures s.recognition.Some? <==> w.hasSpeechRecognition || w.hasWebkitSpeechRecognition
    ensures s.recognition.Some? ==>
              && s.recognition.value.engine == (if w.hasSpeechRecognition then Standard else Webkit)
              && !s.recognition.value.continuous
              && s.recognition.value.interimResults
              && s.recognition.value.lang == "en-US"
    ensures !s.isListening && s.transcript == ""
  {
    if w.hasSpeechRecognition || w.hasWebkitSpeechRecognition then
      var engine := if w.hasSpeechRecognition then Standard else Webkit;
      VoiceState(Some(Recognizer(engine, false, true, "en-US")), false, "")
    else VoiceState(None, false, "")
  }

  /** `isSupported`: a recognizer was made. */
  predicate IsSupported(s: VoiceState) {
    s.recognition.Some?
  }

  /** `startListening`: with a recognizer, clear the transcript, start it and mark listening; without one, nothing. */
  function StartListening(s: VoiceState): (r: Step)
    ensures IsSupported(s) ==> r == Step(s.(isListening := true, transcript := ""), Some(StartRecognizer))
    ensures !IsSupported(s) ==> r == Step(s, None)
  {
    if s.recognition.Some? then Step(s.(transcript := "", isListening := true), Some(StartRecognizer))
    else Step(s, None)
  }

  /** `stopListening`: with a recognizer, stop it and mark not listening, keeping the transcript; without one, nothing. */
  function StopListening(s: VoiceState): (r: Step)
    ensures IsSupported(s) ==> r == Step(s.(isListening := false), Some(StopRecognizer))
    ensures !IsSupported(s) ==> r == Step(s, None)
  {
    if s.recognition.Some? then Step(s.(isListening := false), Some(StopRecognizer))
    else Step(s, None)
  }

  /** The transcript a result event carries: the first alternative of the result at `resultIndex`, if there is one. */
  function Heard(ev: RecognitionEvent): (r: Option<string>)
    requires ev.Result?
    ensures r.Some? <==> 0 <= ev.resultIndex < |ev.results| && |ev.results[ev.resultIndex]| > 0
    ensures r.Some? ==> r.value == ev.results[ev.resultIndex][0]
  {
    if 0 <= ev.resultIndex < |ev.results| && |ev.results[ev.resultIndex]| > 0
    then Some(ev.results[ev.resultIndex][0])
    else None
  }

  /**
    The three handlers: a result replaces the transcript with what it carries
    (an index with no result, or a result with no alternative, makes the
    handler throw before it sets anything); an error or the end of the session
    marks not listening.
   */
  function OnEvent(s: VoiceState, ev: RecognitionEvent): (r: VoiceState)
    ensures r.recognition == s.recognition
    ensures ev.Result? ==> r.isListening == s.isListening
    ensures ev.Result? && Heard(ev).Some? ==> r.transcript == Heard(ev).value
    ensures ev.Result? && Heard(ev).None? ==> r == s
    ensures !ev.Result? ==> r == s.(isListening := false)
  {
    match ev
    case Result(_, _) =>
      (match Heard(ev) case Some(t) => s.(transcript := t) case None => s)
    case Error(_) => s.(isListening := false)
    case End => s.(isListening := false)
  }

  /** Stopping twice is stopping once. */
  lemma StopIdempotent(s: VoiceState)
    ensures StopListening(StopListening(s).state).state == StopListening(s).state
  {
  }

  /** An error and the end of the session have the same effect, whatever the error. */
  lemma ErrorActsAsEnd(s: VoiceState, code: string)
    ensures OnEvent(s, Error(code)) == OnEvent(s, End)
  {
  }

  /** A result replaces the transcript rather than adding to it: what was there before does not matter. */
  lemma ResultReplacesTranscript(s: VoiceState, s': VoiceState, ev: RecognitionEvent)
    requires ev.Result? && Heard(ev).Some?
    ensures OnEvent(s, ev).transcript == OnEvent(s', ev).transcript
  {
  }

  /** Everything the page can do to the hook, and everything the recognizer can report. */
  datatype VoiceAction = Start | Stop | Recognized(ev: RecognitionEvent)

  function Apply(s: VoiceState, a: VoiceAction): VoiceState {
    match a
    case Start => StartListening(s).state
    case Stop => StopListening(s).state
    case Recognized(ev) => OnEvent(s, ev)
  }

  /** The state after a run of actions, applied in order. */
  function Run(s: VoiceState, actions: seq<VoiceAction>): VoiceState
    decreases |actions|
  {
    if |actions| == 0 then s else Run(Apply(s, actions[0]), actions[1..])
  }

  /**
    Reference for `isListening` after a run: decided by the last action that
    sets it: a start (listening) or a stop (not listening), each only if there
    is a recognizer, or an error or the end of the session (not listening);
    results leave it alone.
   */
  function ListeningAfter(supported: bool, listening: bool, actions: seq<VoiceAction>): bool
    decreases |actions|
  {
    if |actions| == 0 then listening
    else
      var a := actions[|actions| - 1];
      var before := actions[..|actions| - 1];
      match a
      case Start => if supported then true else ListeningAfter(supported, listening, before)
      case Stop => if supported then false else ListeningAfter(supported, listening, before)
      case Recognized(ev) => if ev.Result? then ListeningAfter(supported, listening, before) else false
  }

  /**
    Reference for the transcript after a run: what the last start (an empty
    transcript, if there is a recognizer) or the last usable result says.
   */
  function TranscriptAfter(supported: bool, transcript: string, actions: seq<VoiceAction>): string
    decreases |actions|
  {
    if |actions| == 0 then transcript
    else
      var a := actions[|actions| - 1];
      var before := actions[..|actions| - 1];
      match a
      case Start => if supported then "" else TranscriptAfter(supported, transcript, before)
      case Recognized(ev) =>
        if ev.Result? && Heard(ev).Some? then Heard(ev).value else TranscriptAfter(supported, transcript, before)
      case Stop => TranscriptAfter(supported, transcript, before)
  }

  /**
    A run keeps the recognizer it started with, and ends listening and with
    the transcript that the last relevant action decides.
   */
  lemma {:induction false} RunMatchesReference(s: VoiceState, actions: seq<VoiceAction>)
    ensures Run(s, actions).recognition == s.recognition
    ensures Run(s, actions).isListening == ListeningAfter(IsSupported(s), s.isListening, actions)
    ensures Run(s, actions).transcript == TranscriptAfter(IsSupported(s), s.transcript, actions)
    decreases |actions|
  {
    if |actions| > 0 {
      var before := actions[..|actions| - 1];
      var a := actions[|actions| - 1];
      assert actions == before + [a];
      RunMatchesReference(s, before);
      RunSnoc(s, before, a);
    }
  }

  /** Running one more action is applying it to where the run got to. */
  lemma {:induction false} RunSnoc(s: VoiceState, actions: seq<VoiceAction>, a: VoiceAction)
    ensures Run(s, actions + [a]) == Apply(Run(s, actions), a)
    decreases |actions|
  {
    if |actions| == 0 {
      assert [a][1..] == [];
    } else {
      assert (actions + [a])[1..] == actions[1..] + [a];
      RunSnoc(Apply(s, actions[0]), actions[1..], a);
    }
  }
}
